=== FILE: README.md ===
# Movie tracker core in Dafny

A model of the write path of the movie-tracker service, with proofs about it.
A user asks for a TMDB movie or TV show to be added to their list.
The service then:

- runs a catalog step. As written this is a strict check: media already in the local catalog is refused with 409, and otherwise its details are fetched from TMDB and stored. The evidently intended step is get-or-create, which reuses cached media (see Findings);
- records a link between the user and the media;
- translates every handled failure along the way into an HTTP error response. A null media type and a non-unique lookup have no handler.

The model covers:

- the TMDB client's failure classification (`execute`) and its null-response guards;
- the DTO-to-entity projections;
- the get-or-create and strict catalog saves of the three services;
- link creation;
- the `POST /users/{user_id}/media` composition in `UserMediaController`;
- the global exception handler;
- the JSON (de)serialisation of `MediaType`.

## Structure

Each file is one module:

- `wrappers.dfy`: `Option`, `Result` and `Outcome`.
- `media_type.dfy`: `MediaType`'s `fromJson` (`trim`, then `toUpperCase`, then `valueOf`) and `toJson`.
- `entities.dfy`: the TMDB DTOs, the `Movie`, `TvShow` and `UserMedia` entities, and the request body.
- `tmdb_client.dfy`: `execute`, the endpoint methods and the `TmdbClient` class.
  The HTTP call is represented by what it did (`CallOutcome`): it returned a payload, possibly null; it threw `RestClientResponseException`; or it threw another `RestClientException`.
- `errors.dfy`: the exceptions and `GlobalExceptionHandler`.
- `repositories.dfy`: a table of rows with IDENTITY ids, `findByTmdbId` and `save`.
- `catalog.dfy`: what each service step does to the database, stated as functions on a `DbState` value.
- `services.dfy`: the three service classes.
  Their methods update `Table` objects in place and are proved to match the functions in `catalog.dfy`.
- `controller.dfy`: the controller flow as written, the `UserMediaController` class proved against it, and the flow as evidently intended.

## How the code was read

- **The controller's arguments.** `saveMediaToDb` passes the request DTO where `UserMediaService` expects a `Long` tmdbId.
  The model reads these calls as `dto.getTmdbId()`.
- **No `@Valid` on the request body.** The `@NotNull` constraints of `AddUserMediaRequestDTO` are never checked.
  A request without a media type reaches `getMediaType().equals(...)` and throws a `NullPointerException`.
  No handler covers that exception (`NullMediaType`).
- **Lookups with several matches.** `findByTmdbId` returns an `Optional`.
  A table with two rows for one id makes it throw `IncorrectResultSizeDataAccessException`, which no handler covers (`NonUniqueResult`).
  Nothing keeps the tmdbId unique, because the stored key is the id TMDB returned, which need not be the requested one.
  The lookup therefore has three outcomes.
- **No transactions.** No method is `@Transactional`, and every `save` commits on its own.
  When the link step fails for an unknown user, the movie row saved just before stays (`Controller.UnknownUserKeepsCatalogRow`).
- **Link duplicates.** `existsByUserIdAndMediaTypeAndTmdbId` is declared (`repository/UserMediaRepository.java:14`) and never called, so the links themselves are never checked for duplicates (`Catalog.SaveUserMediaRepeats`).
  As written, the strict catalog save rejects the repeat instead.
- **Missing upstream status.** `handleExternal` has a `tmdb_unavailable` branch, but line 17 first turns a missing status into 503.
  A failure with no upstream status is therefore reported as `tmdb_server_error` (see Findings).
- **One projection.** `getMovie`, the private `convertTmdbMovieDtoToMovie` of both services and their TV show counterparts are the same projection, defined once.
- **`backdropPath`.** The entities copy `backdrop_path`, so both DTOs carry it as an optional field.

## Model

| member | source | states |
|---|---|---|
| MediaTypes.ToJson | src/main/java/com/github/davidduclam/movietracker/model/MediaType.java:14-17 | TV is written as "tv" and MOVIE as "movie" |
| MediaTypes.FromJson | src/main/java/com/github/davidduclam/movietracker/model/MediaType.java:9-12 | the result is the constant whose name equals the trimmed, upper-cased text; none when no name matches |
| MediaTypes.FromJsonToJson | src/main/java/com/github/davidduclam/movietracker/model/MediaType.java:9-17 | reading back what `toJson` wrote gives the same media type |
| MediaTypes.FromJsonIgnoresPadding | src/main/java/com/github/davidduclam/movietracker/model/MediaType.java:11 | blanks (chars up to U+0020) around the text do not change the result |
| MediaTypes.FromJsonIgnoresCase | src/main/java/com/github/davidduclam/movietracker/model/MediaType.java:11 | lower-casing or upper-casing the text does not change the result |
| MediaTypes.FromJsonMixedCase | src/main/java/com/github/davidduclam/movietracker/model/MediaType.java:11 | "Movie" reads as MOVIE |
| MediaTypes.FromJsonPaddedMovie | src/main/java/com/github/davidduclam/movietracker/model/MediaType.java:11 | " Movie " reads as MOVIE |
| MediaTypes.FromJsonRejectsPlural | src/main/java/com/github/davidduclam/movietracker/model/MediaType.java:11 | "movies" matches no constant |
| Tmdb.TrimmedBody | src/main/java/com/github/davidduclam/movietracker/client/tmdb/TmdbClient.java:215-216 | the logged snippet is "" for a null body; otherwise it is the first min(length, 200) chars of the body: a prefix of it, the whole body when it is that short, exactly 200 chars when it is longer |
| Tmdb.Execute | src/main/java/com/github/davidduclam/movietracker/client/tmdb/TmdbClient.java:211-227 | a returned value passes through unchanged, null included; a response error gives an exception carrying its status and the message "TMDB action failed with status N"; any other client error gives one with no status and the message exactly "TMDB action failed"; every message starts "TMDB action failed" |
| Tmdb.MessageCarriesStatus | src/main/java/com/github/davidduclam/movietracker/client/tmdb/TmdbClient.java:218-222 | the status can be read back from the decimal text at the end of the message |
| Tmdb.DecimalRoundTrip | src/main/java/com/github/davidduclam/movietracker/client/tmdb/TmdbClient.java:219 | the decimal rendering of a status reads back as the same number |
| Tmdb.RequirePayload | src/main/java/com/github/davidduclam/movietracker/error/TmdbClientException.java:11-13 | a null payload becomes "TMDB returned an empty response for ..." with no status; a non-null one is returned; an earlier failure passes through |
| Tmdb.Details | src/main/java/com/github/davidduclam/movietracker/client/tmdb/TmdbClient.java:69-78 | the details endpoints succeed exactly when a non-null DTO came back; a null one gives the endpoint's empty-response error; a response error or client error is exactly the exception `execute` throws (its status and message) |
| Tmdb.Listing | src/main/java/com/github/davidduclam/movietracker/client/tmdb/TmdbClient.java:45-60 | the list endpoints return the page's `results` exactly when a non-null page came back; the errors are exactly the exceptions `execute` throws, as for details |
| Tmdb.TmdbClient.FetchMovieDetails | src/main/java/com/github/davidduclam/movietracker/client/tmdb/TmdbClient.java:69-78 | sends one movie-details request, recorded in the log, and returns `Details` of what TMDB answered |
| Tmdb.TmdbClient.FetchTvShowDetails | src/main/java/com/github/davidduclam/movietracker/client/tmdb/TmdbClient.java:142-151 | the same for TV show details |
| Errors.HandleExternal | src/main/java/com/github/davidduclam/movietracker/error/GlobalExceptionHandler.java:15-25 | the status is the upstream one, or 503 when there is none; the code is "tmdb_client_error" iff the status is 4xx, "tmdb_server_error" iff 5xx, "tmdb_unavailable" otherwise; the message is the exception's |
| Errors.ValidationMessage | src/main/java/com/github/davidduclam/movietracker/error/GlobalExceptionHandler.java:55-63 | "Invalid request body" with no field errors, otherwise "field: message" of the first one, and "field: null" when its default message is null |
| Errors.Handle | src/main/java/com/github/davidduclam/movietracker/error/GlobalExceptionHandler.java:15-63 | each handled exception gets its fixed status and code (409 MEDIA_ALREADY_EXISTS, 404 USER_NOT_FOUND, 400 INVALID_REQUEST_BODY, 409 CONSTRAINT_VIOLATION, 400 VALIDATION_ERROR); a null media type and a non-unique lookup have no handler |
| Errors.OnlyTmdbFailuresLeave4xx | src/main/java/com/github/davidduclam/movietracker/error/GlobalExceptionHandler.java:27-63 | every handled error other than a TMDB failure is answered with a 4xx status |
| Errors.UpstreamStatusPassesThrough | src/main/java/com/github/davidduclam/movietracker/error/GlobalExceptionHandler.java:15-25 | an upstream error status reaches the API client unchanged, with the client/server code matching it |
| Errors.NoStatusReportedAsServerError | src/main/java/com/github/davidduclam/movietracker/error/GlobalExceptionHandler.java:17-21 | a transport failure or an empty payload is answered 503 "tmdb_server_error" (finding) |
| Errors.HandleExternalIntended | src/main/java/com/github/davidduclam/movietracker/error/GlobalExceptionHandler.java:15-25 | corrected handler: no status gives 503 "tmdb_unavailable"; a status is handled as written |
| Errors.IntendedCodeSeparatesNoStatus | src/main/java/com/github/davidduclam/movietracker/error/GlobalExceptionHandler.java:17-21 | the corrected handler tells a missing status from an upstream 5xx; the handler as written gives both the same code |
| Repositories.Find | src/main/java/com/github/davidduclam/movietracker/repository/MovieRepository.java:10 | absent iff no row has the key; present iff exactly one row has it, and the result is that row; non-unique iff two or more rows have it |
| Repositories.FindAfterInsert | src/main/java/com/github/davidduclam/movietracker/repository/MovieRepository.java:10 | once a row with the key is saved where there was none, the lookup finds exactly that row |
| Repositories.FindUnaffected | src/main/java/com/github/davidduclam/movietracker/repository/TvShowRepository.java:10 | saving a row with another key does not change a lookup |
| Repositories.Insert | src/main/java/com/github/davidduclam/movietracker/model/Movie.java:11-22 | a save appends the entity with the next IDENTITY id and keeps the ids unique and increasing |
| Repositories.Table.Save | src/main/java/com/github/davidduclam/movietracker/repository/MovieRepository.java:8 | the table object gains that row in place, and the stored row is returned |
| Catalog.ProjectMovie | src/main/java/com/github/davidduclam/movietracker/service/UserMediaService.java:50-60 | every movie field is copied from its DTO field, and the row is keyed by the DTO's id |
| Catalog.ProjectTvShow | src/main/java/com/github/davidduclam/movietracker/service/UserMediaService.java:101-111 | `name` becomes the title and `first_air_date` the air date; the other fields are copied and the row is keyed by the DTO's id |
| Catalog.ProjectMovieDropsOnlyVoteAverage | src/main/java/com/github/davidduclam/movietracker/service/MovieService.java:28-37 | two movie DTOs give the same entity iff they agree on every field but `vote_average`: the projection discards exactly that field |
| Catalog.ProjectTvShowDropsOnlyVoteAverage | src/main/java/com/github/davidduclam/movietracker/service/TvShowService.java:32-41 | the same for TV show DTOs |
| Catalog.SaveIfAbsent | src/main/java/com/github/davidduclam/movietracker/service/MovieService.java:46-51 | TMDB is asked iff the id is absent; a present id gives the caller's choice (nothing, or already-exists); a failed fetch saves nothing and reports the TMDB error; a successful one appends the projection |
| Catalog.SaveMovie | src/main/java/com/github/davidduclam/movietracker/service/UserMediaService.java:80-87 | only the movie table and the request log change; at most one details request is sent; a failure leaves the movie table as it was; unique ids are kept |
| Catalog.SaveTvShow | src/main/java/com/github/davidduclam/movietracker/service/UserMediaService.java:131-138 | the same for the TV show table |
| Catalog.SaveMovieIdempotent | src/main/java/com/github/davidduclam/movietracker/service/MovieService.java:46-51 | get-or-create twice leaves the table as once, with the same outcome; after a success the second call changes nothing and sends no request |
| Catalog.SaveTvShowIdempotent | src/main/java/com/github/davidduclam/movietracker/service/TvShowService.java:53-58 | the same for TV shows |
| Catalog.StrictSaveMovieRejectsRepeat | src/main/java/com/github/davidduclam/movietracker/service/UserMediaService.java:80-83 | after a successful strict save, the next one throws "Media already added" and changes nothing |
| Catalog.StrictSaveTvShowRejectsRepeat | src/main/java/com/github/davidduclam/movietracker/service/UserMediaService.java:131-134 | after a successful strict save, the next one throws "TV show already added" and changes nothing |
| Catalog.NewLink | src/main/java/com/github/davidduclam/movietracker/service/UserMediaService.java:66-72 | a new link is not watched, rated 0.0, has no watch date, and carries the user, the media id and the type string |
| Catalog.SaveUserMedia | src/main/java/com/github/davidduclam/movietracker/service/UserMediaService.java:62-78 | an unknown user is "User not found" and changes nothing; a known user gets exactly one new link row with the next id |
| Catalog.LinkTypesAreJsonNames | src/main/java/com/github/davidduclam/movietracker/service/UserMediaService.java:72 | "movie" and "tv" are the JSON names of MOVIE and TV, and read back as them |
| Catalog.SaveUserMediaRepeats | src/main/java/com/github/davidduclam/movietracker/service/UserMediaService.java:113-129 | linking twice stores two equal links under different ids: nothing refuses a duplicate |
| Services.MovieService.SaveMovieToDb | src/main/java/com/github/davidduclam/movietracker/service/MovieService.java:46-51 | the movie table and the request log change as `SaveIfAbsent` with nothing done for a present id |
| Services.TvShowService.SaveTvShowToDb | src/main/java/com/github/davidduclam/movietracker/service/TvShowService.java:53-58 | the same for TV shows |
| Services.UserMediaService.SaveMovieToDb | src/main/java/com/github/davidduclam/movietracker/service/UserMediaService.java:80-87 | the database changes as `SaveMovie` with the "Media already added" rejection |
| Services.UserMediaService.SaveTvShowToDb | src/main/java/com/github/davidduclam/movietracker/service/UserMediaService.java:131-138 | the database changes as `SaveTvShow` with the "TV show already added" rejection |
| Services.UserMediaService.SaveUserMediaMovieToDb | src/main/java/com/github/davidduclam/movietracker/service/UserMediaService.java:62-78 | the database changes as `SaveUserMedia` with type "movie" |
| Services.UserMediaService.SaveUserMediaTvShowToDb | src/main/java/com/github/davidduclam/movietracker/service/UserMediaService.java:113-129 | the database changes as `SaveUserMedia` with type "tv" |
| Controller.AddMedia | src/main/java/com/github/davidduclam/movietracker/controller/UserMediaController.java:32-39 | a null media type fails before anything changes; a failed catalog step is the result, on the state it left, and no link is made; after a passing catalog step a known user always gets exactly one new "tv" link for the media, and an unknown one gets "User not found" with the catalog row kept; users are untouched and unique ids are kept |
| Controller.AddMediaDispatch | src/main/java/com/github/davidduclam/movietracker/controller/UserMediaController.java:33-37 | a MOVIE request leaves the movie table and the request log as the strict movie save does and the TV table untouched; a TV request does the reverse with the strict TV save |
| Controller.CatalogFailureMeansNoLink | src/main/java/com/github/davidduclam/movietracker/controller/UserMediaController.java:33-38 | when the movie catalog step throws, its error is the result and the link step never runs |
| Controller.TvCatalogFailureMeansNoLink | src/main/java/com/github/davidduclam/movietracker/controller/UserMediaController.java:35-38 | the same for the TV catalog step |
| Controller.AddMediaSucceeds | src/main/java/com/github/davidduclam/movietracker/controller/UserMediaController.java:32-39 | a known user asking for an uncached movie that TMDB returns succeeds: the projected movie is appended, one details request is sent, and exactly one "tv" link is appended |
| Controller.AddMediaSucceedsTv | src/main/java/com/github/davidduclam/movietracker/controller/UserMediaController.java:32-39 | the same for an uncached TV show |
| Controller.UnknownUserKeepsCatalogRow | src/main/java/com/github/davidduclam/movietracker/controller/UserMediaController.java:34-38 | for an unknown user and a new movie, the call fails with "User not found" and the fetched movie stays stored |
| Controller.MovieRequestLinkedAsTv | src/main/java/com/github/davidduclam/movietracker/controller/UserMediaController.java:38 | a successful MOVIE request stores a "tv" link, which reads back as TV (finding) |
| Controller.CachedMovieBlocksEveryUser | src/main/java/com/github/davidduclam/movietracker/controller/UserMediaController.java:33-34 | once a movie is stored, every user's request for it fails with 409 MEDIA_ALREADY_EXISTS and changes nothing (finding) |
| Controller.RepeatedMovieRequestConflicts | src/main/java/com/github/davidduclam/movietracker/controller/UserMediaController.java:32-39 | repeating a successful MOVIE request fails with "Media already added" and changes nothing |
| Controller.UserMediaController.SaveMediaToDb | src/main/java/com/github/davidduclam/movietracker/controller/UserMediaController.java:32-39 | the controller object changes the service's tables and returns what `AddMedia` says |
| Controller.AddMediaIntended | src/main/java/com/github/davidduclam/movietracker/repository/UserMediaRepository.java:14 | corrected flow: a request without a media type is a validation error; the user is checked first and an unknown one changes nothing; a failed get-or-create is the result; after it passes, the call succeeds exactly when the user has no link of that type for that media, the new link carrying the requested type, and is refused with "Media already added" otherwise |
| Controller.IntendedTvSucceeds | src/main/java/com/github/davidduclam/movietracker/controller/UserMediaController.java:32-39 | in the corrected flow, a known user asking for an uncached TV show that TMDB returns, with no such link yet, gets the show stored and exactly one "tv" link |
| Controller.IntendedKeepsLinksUnique | src/main/java/com/github/davidduclam/movietracker/repository/UserMediaRepository.java:14 | the corrected flow keeps at most one link per user, media type and media |
| Controller.IntendedLinkTypeRoundTrips | src/main/java/com/github/davidduclam/movietracker/controller/UserMediaController.java:38 | in the corrected flow, the stored type reads back as the requested media type |
| Controller.IntendedCachedMovieLinks | src/main/java/com/github/davidduclam/movietracker/controller/UserMediaController.java:33-34 | in the corrected flow, a movie cached by another user's request is linked without another TMDB request |
| Controller.IntendedRepeatRejected | src/main/java/com/github/davidduclam/movietracker/controller/UserMediaController.java:32-39 | in the corrected flow, repeating a successful request is refused because the link exists, and changes nothing |

## Findings

| source | as written | input that shows it | evidently intended | confidence | as-written member | corrected member |
|---|---|---|---|---|---|---|
| src/main/java/com/github/davidduclam/movietracker/error/GlobalExceptionHandler.java:17-21 | a missing status is replaced by 503 before the code is chosen, so it is always classed "tmdb_server_error" | a network failure or a null TMDB payload: 503, "tmdb_server_error" | "tmdb_unavailable" for failures with no upstream status, so that they are told apart from an upstream 5xx | not executed | Errors.NoStatusReportedAsServerError | Errors.HandleExternalIntended |
| src/main/java/com/github/davidduclam/movietracker/controller/UserMediaController.java:38 | the link step is always `saveUserMediaTvShowToDb` | `{"tmdbId": 550, "mediaType": "movie"}` for a known user stores a link with mediaType "tv" | the link's type follows the request's media type | not executed | Controller.MovieRequestLinkedAsTv | Controller.IntendedLinkTypeRoundTrips |
| src/main/java/com/github/davidduclam/movietracker/controller/UserMediaController.java:33-34 | the catalog step is the strict variant, which throws when the media is already stored | user 1 adds movie 550, then user 2 adds movie 550: user 2 gets 409 and no link | cached media is reused and each user gets their own link | not executed | Controller.CachedMovieBlocksEveryUser | Controller.IntendedCachedMovieLinks |

## Left out

- HTTP transport, request routing, JSON mapping details and logging are left out.
  The logged body snippet is modelled (`Tmdb.TrimmedBody`); the log call itself is not.
- TMDB's answers are a parameter (`Tmdb.Provider`).
  The same id always gets the same answer within one model state, which a live service does not guarantee.
- The read-only pass-through methods are not modelled: the search, popular, top-rated and upcoming service methods, the `fetch*Details` delegations, and the read routes of the movie, TV and search controllers.
  They only forward TMDB results and hold no logic beyond `Tmdb.Details` (details routes) and `Tmdb.Listing` (list routes).
- `MovieController.saveMovie` (`controller/MovieController.java:28-30`) is left out because its callee, `movieService.getOrCreateMovie`, is not declared by `MovieService`.
  The list endpoints share one model; their query parameters and URIs are left out.
- `UserMovie`, `UserMovieRepository`, `SearchService`, the multi-search DTOs and the commented-out controller endpoints are not part of this model, because the write path does not use them.
- `User` is not part of this model: its source is missing.
- The sources of `UserNotFoundException` and `ErrorResponse` are missing, so both are modelled abstractly.
  The exception is a message (`Errors.UserNotFound`), and the body is a code and a message (`Errors.ErrorResponse`).
  The user table is modelled as the set of existing ids.
- `UserController` is left out because it only routes requests to the user store.
- Concurrency and transactions are left out.
  Each call runs alone, and the save-before-failure behaviour follows from the absence of `@Transactional`.
- The unique-constraint violations the database could raise (`DataIntegrityViolationException`) are only mapped by `Errors.Handle`; no operation produces one.
  Constraint definitions are not part of this model.
- Exceptions from the supplier other than `RestClientException` are left out, because they escape `execute` unclassified.
- `vote_average` is carried by the DTOs as a real, and the projections discard it; ratings as `Double` and `LocalDate` parsing are left out.
  Dates are opaque values, and the 0.0 rating is a real literal.
- The request's `tmdbId` is a number in the model; a null `tmdbId` is not modelled.
- Long ids are unbounded integers; overflow at 2^63 is not modelled.
- MediaTypes.FromJson: `toUpperCase` is modelled for the characters that can affect the result.
  These are a-z plus U+0131 and U+017F, which upper-case to ASCII.
  Other characters are kept as they are, which cannot change which constant matches.
  The default locale is assumed not to be Turkish.
  `trim` is modelled as in Java: chars up to U+0020 are blanks.
- Tmdb.TrimmedBody: counts Unicode scalar values (Dafny `char`s), while `substring(0, 200)` counts UTF-16 code units.
  For a body with characters outside the Basic Multilingual Plane, the model's snippet can be longer than the logged one.
- Updating an entity that already has an id (JPA merge) is left out, because the core only saves new entities.
- The stack traces and `cause` of exceptions are left out.

=== FILE: catalog.dfy ===
/**
 * What the services do to the database, stated on values: the DTO-to-entity
 * projections, the catalog steps (service/MovieService.java,
 * service/TvShowService.java and the strict variants in
 * service/UserMediaService.java) and the link step (UserMediaService).
 * The classes in module Services are proved to behave as these functions say.
 */
module Catalog {
  import opened Wrappers
  import opened MediaTypes
  import opened Entities
  import opened Tmdb
  import opened Errors
  import opened Repositories

  // ---------------------------------------------------------------
  // Projections
  // ---------------------------------------------------------------

  /**
   * getMovie / convertTmdbMovieDtoToMovie (the two are the same code): the
   * new entity has no local id yet and is keyed by the DTO's id.
   */
  function ProjectMovie(dto: TmdbMovieDto): (m: Movie)
    ensures MovieKey(m) == dto.id
    ensures m.title == dto.title && m.releaseDate == dto.releaseDate
    ensures m.posterPath == dto.posterPath && m.backdropPath == dto.backdropPath
    ensures m.overview == dto.overview
  {
    Movie(dto.id, dto.title, dto.releaseDate, dto.posterPath, dto.backdropPath, dto.overview)
  }

  /** getTvShow / convertTmdbTvShowDtoToTvShow: name becomes title, first_air_date firstAirDate. */
  function ProjectTvShow(dto: TmdbTvShowDto): (t: TvShow)
    ensures TvShowKey(t) == dto.id
    ensures t.title == dto.name && t.firstAirDate == dto.firstAirDate
    ensures t.posterPath == dto.posterPath && t.backdropPath == dto.backdropPath
    ensures t.overview == dto.overview
  {
    TvShow(dto.id, dto.name, dto.firstAirDate, dto.posterPath, dto.backdropPath, dto.overview)
  }

  /**
   * The movie projection loses exactly the vote average: two DTOs give the
   * same entity iff they differ at most in `voteAverage`.
   */
  lemma ProjectMovieDropsOnlyVoteAverage(a: TmdbMovieDto, b: TmdbMovieDto)
    ensures ProjectMovie(a) == ProjectMovie(b) <==> a.(voteAverage := b.voteAverage) == b
  {
    if ProjectMovie(a) == ProjectMovie(b) {
      assert a.id == b.id && a.title == b.title && a.overview == b.overview;
    }
  }

  /** The same holds for the TV show projection. */
  lemma ProjectTvShowDropsOnlyVoteAverage(a: TmdbTvShowDto, b: TmdbTvShowDto)
    ensures ProjectTvShow(a) == ProjectTvShow(b) <==> a.(voteAverage := b.voteAverage) == b
  {
    if ProjectTvShow(a) == ProjectTvShow(b) {
      assert a.id == b.id && a.name == b.name && a.overview == b.overview;
    }
  }

  // ---------------------------------------------------------------
  // The database
  // ---------------------------------------------------------------

  /** The four tables and the log of details requests sent to TMDB. */
  datatype DbState = DbState(
    movies: seq<Row<Movie>>, nextMovieId: int,
    tvShows: seq<Row<TvShow>>, nextTvShowId: int,
    users: set<int>,
    links: seq<Row<UserMedia>>, nextLinkId: int,
    requests: seq<Request>)

  /** Every table keeps its ids unique. */
  ghost predicate ValidState(s: DbState) {
    && WellFormed(s.movies, s.nextMovieId)
    && WellFormed(s.tvShows, s.nextTvShowId)
    && WellFormed(s.links, s.nextLinkId)
  }

  // ---------------------------------------------------------------
  // The catalog step
  // ---------------------------------------------------------------

  /** The new contents of one catalog table, whether TMDB was asked, and how the call ended. */
  datatype CatalogStep<E> = CatalogStep(rows: seq<Row<E>>, nextId: int, fetched: bool, outcome: Outcome<AppError>)

  /**
   * Look `tmdbId` up; when it is absent, fetch the details and save their
   * projection. What happens when it is present is `onPresent`: nothing
   * (get-or-create) or a MediaAlreadyExistsException (the strict variant).
   * The fetch comes before the save, so a failing fetch saves nothing.
   */
  function SaveIfAbsent<D, E>(rows: seq<Row<E>>, nextId: int, key: E -> Option<int>, project: D -> E,
                              tmdbId: int, fetch: Result<D, TmdbError>, onPresent: Outcome<AppError>)
    : (r: CatalogStep<E>)
    ensures r.fetched <==> Find(rows, key, tmdbId).Absent?
    ensures Find(rows, key, tmdbId).Present? ==> r.outcome == onPresent
    ensures Find(rows, key, tmdbId).NonUnique? ==> r.outcome == Fail(NonUniqueResult)
    ensures r.fetched && fetch.Failure? ==> r.outcome == Fail(TmdbFailure(fetch.error))
    ensures r.fetched && fetch.Success? ==>
      r.outcome == Pass && (r.rows, r.nextId) == Insert(rows, nextId, project(fetch.value))
    ensures !(r.fetched && fetch.Success?) ==> r.rows == rows && r.nextId == nextId
    ensures WellFormed(rows, nextId) ==> WellFormed(r.rows, r.nextId)
  {
    match Find(rows, key, tmdbId)
    case Present(_) => CatalogStep(rows, nextId, false, onPresent)
    case NonUnique => CatalogStep(rows, nextId, false, Fail(NonUniqueResult))
    case Absent =>
      match fetch
      case Failure(e) => CatalogStep(rows, nextId, true, Fail(TmdbFailure(e)))
      case Success(dto) =>
        var (rows', nextId') := Insert(rows, nextId, project(dto));
        CatalogStep(rows', nextId', true, Pass)
  }

  /** The thrown duplicate errors of UserMediaService.saveMovieToDb and saveTvShowToDb. */
  const MovieAlreadyAdded: AppError := MediaAlreadyExists("Media already added")
  const TvShowAlreadyAdded: AppError := MediaAlreadyExists("TV show already added")

  /** The movie catalog step on the whole database: only the movie table and the request log change. */
  function SaveMovie(s: DbState, p: Provider, tmdbId: int, onPresent: Outcome<AppError>)
    : (r: (DbState, Outcome<AppError>))
    ensures r.0 == s.(movies := r.0.movies, nextMovieId := r.0.nextMovieId, requests := r.0.requests)
    ensures r.0.requests == s.requests || r.0.requests == s.requests + [MovieDetailsRequest(tmdbId)]
    ensures r.1.Fail? ==> r.0.movies == s.movies
    ensures ValidState(s) ==> ValidState(r.0)
  {
    var step := SaveIfAbsent(s.movies, s.nextMovieId, MovieKey, ProjectMovie, tmdbId,
                             Details(MovieDetails, p.movie(tmdbId)), onPresent);
    var sent := if step.fetched then [MovieDetailsRequest(tmdbId)] else [];
    (s.(movies := step.rows, nextMovieId := step.nextId, requests := s.requests + sent), step.outcome)
  }

  /** The TV show catalog step on the whole database: only the TV table and the request log change. */
  function SaveTvShow(s: DbState, p: Provider, tmdbId: int, onPresent: Outcome<AppError>)
    : (r: (DbState, Outcome<AppError>))
    ensures r.0 == s.(tvShows := r.0.tvShows, nextTvShowId := r.0.nextTvShowId, requests := r.0.requests)
    ensures r.0.requests == s.requests || r.0.requests == s.requests + [TvShowDetailsRequest(tmdbId)]
    ensures r.1.Fail? ==> r.0.tvShows == s.tvShows
    ensures ValidState(s) ==> ValidState(r.0)
  {
    var step := SaveIfAbsent(s.tvShows, s.nextTvShowId, TvShowKey, ProjectTvShow, tmdbId,
                             Details(TvShowDetails, p.tv(tmdbId)), onPresent);
    var sent := if step.fetched then [TvShowDetailsRequest(tmdbId)] else [];
    (s.(tvShows := step.rows, nextTvShowId := step.nextId, requests := s.requests + sent), step.outcome)
  }

  /**
   * Get-or-create is idempotent when TMDB's details carry the requested id:
   * a second call leaves the tables as the first left them, and when the
   * first call succeeded it changes nothing at all and fetches nothing.
   */
  lemma {:induction false} SaveMovieIdempotent(s: DbState, p: Provider, tmdbId: int)
    requires var f := Details(MovieDetails, p.movie(tmdbId)); f.Success? ==> f.value.id == Some(tmdbId)
    ensures var once := SaveMovie(s, p, tmdbId, Pass);
      var twice := SaveMovie(once.0, p, tmdbId, Pass);
      twice.0.movies == once.0.movies && twice.1 == once.1 &&
      (once.1.Pass? ==> twice.0 == once.0)
  {
    var once := SaveMovie(s, p, tmdbId, Pass);
    var f := Details(MovieDetails, p.movie(tmdbId));
    if Find(s.movies, MovieKey, tmdbId).Absent? && f.Success? {
      FindAfterInsert(s.movies, MovieKey, tmdbId, Row(s.nextMovieId, ProjectMovie(f.value)));
    }
  }

  /** The same for TV shows. */
  lemma {:induction false} SaveTvShowIdempotent(s: DbState, p: Provider, tmdbId: int)
    requires var f := Details(TvShowDetails, p.tv(tmdbId)); f.Success? ==> f.value.id == Some(tmdbId)
    ensures var once := SaveTvShow(s, p, tmdbId, Pass);
      var twice := SaveTvShow(once.0, p, tmdbId, Pass);
      twice.0.tvShows == once.0.tvShows && twice.1 == once.1 &&
      (once.1.Pass? ==> twice.0 == once.0)
  {
    var once := SaveTvShow(s, p, tmdbId, Pass);
    var f := Details(TvShowDetails, p.tv(tmdbId));
    if Find(s.tvShows, TvShowKey, tmdbId).Absent? && f.Success? {
      FindAfterInsert(s.tvShows, TvShowKey, tmdbId, Row(s.nextTvShowId, ProjectTvShow(f.value)));
    }
  }

  /**
   * The strict variant rejects the second save of the same id: after a
   * successful save whose details carry the id, the next one throws
   * MediaAlreadyExistsException and changes nothing.
   */
  lemma {:induction false} StrictSaveMovieRejectsRepeat(s: DbState, p: Provider, tmdbId: int)
    requires var f := Details(MovieDetails, p.movie(tmdbId)); f.Success? ==> f.value.id == Some(tmdbId)
    requires SaveMovie(s, p, tmdbId, Fail(MovieAlreadyAdded)).1.Pass?
    ensures var once := SaveMovie(s, p, tmdbId, Fail(MovieAlreadyAdded));
      SaveMovie(once.0, p, tmdbId, Fail(MovieAlreadyAdded)) == (once.0, Fail(MovieAlreadyAdded))
  {
    var f := Details(MovieDetails, p.movie(tmdbId));
    FindAfterInsert(s.movies, MovieKey, tmdbId, Row(s.nextMovieId, ProjectMovie(f.value)));
  }

  /** The same for TV shows. */
  lemma {:induction false} StrictSaveTvShowRejectsRepeat(s: DbState, p: Provider, tmdbId: int)
    requires var f := Details(TvShowDetails, p.tv(tmdbId)); f.Success? ==> f.value.id == Some(tmdbId)
    requires SaveTvShow(s, p, tmdbId, Fail(TvShowAlreadyAdded)).1.Pass?
    ensures var once := SaveTvShow(s, p, tmdbId, Fail(TvShowAlreadyAdded));
      SaveTvShow(once.0, p, tmdbId, Fail(TvShowAlreadyAdded)) == (once.0, Fail(TvShowAlreadyAdded))
  {
    var f := Details(TvShowDetails, p.tv(tmdbId));
    FindAfterInsert(s.tvShows, TvShowKey, tmdbId, Row(s.nextTvShowId, ProjectTvShow(f.value)));
  }

  // ---------------------------------------------------------------
  // The link step
  // ---------------------------------------------------------------

  /** The row a new link starts as: not watched, rating 0.0, no watch date. */
  function NewLink(userId: int, tmdbId: int, mediaType: string): (u: UserMedia)
    ensures u.userId == userId && u.tmdbId == tmdbId && u.mediaType == Some(mediaType)
    ensures !u.watched && u.personalRating == Some(0.0) && u.watchDate.None?
  {
    UserMedia(userId, tmdbId, false, Some(0.0), None, Some(mediaType))
  }

  /** The media type strings the two link variants store. */
  const MovieLinkType: string := "movie"
  const TvLinkType: string := "tv"

  /**
   * saveUserMediaMovieToDb / saveUserMediaTvShowToDb: a known user gets one
   * more link row (there is no duplicate check); an unknown one is a
   * UserNotFoundException and nothing changes.
   */
  function SaveUserMedia(s: DbState, userId: int, tmdbId: int, mediaType: string)
    : (r: (DbState, Result<Row<UserMedia>, AppError>))
    ensures userId !in s.users ==> r == (s, Failure(UserNotFound("User not found")))
    ensures userId in s.users ==>
      && r.1 == Success(Row(s.nextLinkId, NewLink(userId, tmdbId, mediaType)))
      && r.0 == s.(links := s.links + [r.1.value], nextLinkId := s.nextLinkId + 1)
    ensures ValidState(s) ==> ValidState(r.0)
  {
    if userId in s.users then
      var row := Row(s.nextLinkId, NewLink(userId, tmdbId, mediaType));
      var (links, nextLinkId) := Insert(s.links, s.nextLinkId, row.entity);
      (s.(links := links, nextLinkId := nextLinkId), Success(row))
    else
      (s, Failure(UserNotFound("User not found")))
  }

  /** The stored type strings are exactly the JSON names of the media types. */
  lemma LinkTypesAreJsonNames()
    ensures MovieLinkType == ToJson(MOVIE) && TvLinkType == ToJson(TV)
    ensures FromJson(MovieLinkType) == Some(MOVIE) && FromJson(TvLinkType) == Some(TV)
  {
    FromJsonToJson(MOVIE);
    FromJsonToJson(TV);
  }

  /** Repeating a link call for a known user stores a second, equal link under a new id. */
  lemma SaveUserMediaRepeats(s: DbState, userId: int, tmdbId: int, mediaType: string)
    requires userId in s.users
    ensures var once := SaveUserMedia(s, userId, tmdbId, mediaType);
      var twice := SaveUserMedia(once.0, userId, tmdbId, mediaType);
      && twice.1.Success?
      && |twice.0.links| == |s.links| + 2
      && twice.1.value.entity == once.1.value.entity
      && twice.1.value.id != once.1.value.id
  {
  }
}

=== FILE: controller.dfy ===
/**
 * POST /users/{user_id}/media (controller/UserMediaController.java): the
 * catalog step chosen by the media type, then the link step.
 */
module Controller {
  import opened Wrappers
  import opened MediaTypes
  import opened Entities
  import opened Tmdb
  import opened Errors
  import opened Repositories
  import opened Catalog
  import opened Services

  /** The catalog step lines 33-37 choose: the strict movie save for MOVIE, the strict TV save otherwise. */
  function RequestedCatalogStep(s: DbState, p: Provider, mt: MediaType, tmdbId: int): (DbState, Outcome<AppError>) {
    if mt == MOVIE then SaveMovie(s, p, tmdbId, Fail(MovieAlreadyAdded))
    else SaveTvShow(s, p, tmdbId, Fail(TvShowAlreadyAdded))
  }

  /**
   * saveMediaToDb as written. The calls pass the request where the services
   * take a tmdbId; the request's tmdbId is what is evidently meant. Reading
   * the media type of a request without one throws a NullPointerException
   * before anything changes. The link step is always the TV one.
   * Each repository call commits on its own: nothing undoes a catalog row
   * when the link step fails.
   */
  function AddMedia(s: DbState, p: Provider, userId: int, request: AddUserMediaRequest)
    : (r: (DbState, Result<Row<UserMedia>, AppError>))
    ensures request.mediaType.None? ==> r == (s, Failure(NullMediaType))
    ensures request.mediaType.Some? ==>
      var c := RequestedCatalogStep(s, p, request.mediaType.value, request.tmdbId);
      && (c.1.Fail? ==> r == (c.0, Failure(c.1.error)))
      && (c.1.Pass? && userId in s.users ==> r.1.Success? && r.0.links == c.0.links + [r.1.value])
      && (c.1.Pass? && userId !in s.users ==> r == (c.0, Failure(UserNotFound("User not found"))))
    ensures r.0.users == s.users
    ensures r.1.Failure? ==> r.0.links == s.links
    ensures r.1.Success? ==> r.0.links == s.links + [r.1.value]
    ensures r.1.Success? ==> r.1.value.entity == NewLink(userId, request.tmdbId, TvLinkType)
    ensures ValidState(s) ==> ValidState(r.0)
  {
    match request.mediaType
    case None => (s, Failure(NullMediaType))
    case Some(mt) =>
      var (s1, catalog) := RequestedCatalogStep(s, p, mt, request.tmdbId);
      match catalog
      case Fail(e) => (s1, Failure(e))
      case Pass => SaveUserMedia(s1, userId, request.tmdbId, TvLinkType)
  }

  /**
   * The main success path: a known user asking for a movie that is not yet
   * cached, whose details TMDB returns, gets the movie stored and exactly
   * one new link.
   */
  lemma AddMediaSucceeds(s: DbState, p: Provider, userId: int, request: AddUserMediaRequest)
    requires request.mediaType == Some(MOVIE) && userId in s.users
    requires Find(s.movies, MovieKey, request.tmdbId).Absent?
    requires Details(MovieDetails, p.movie(request.tmdbId)).Success?
    ensures var r := AddMedia(s, p, userId, request);
      var dto := Details(MovieDetails, p.movie(request.tmdbId)).value;
      && r.1.Success?
      && r.0.movies == s.movies + [Row(s.nextMovieId, ProjectMovie(dto))]
      && r.0.links == s.links + [Row(s.nextLinkId, NewLink(userId, request.tmdbId, TvLinkType))]
      && r.0.requests == s.requests + [MovieDetailsRequest(request.tmdbId)]
  {
  }

  /** The same for a TV show. */
  lemma AddMediaSucceedsTv(s: DbState, p: Provider, userId: int, request: AddUserMediaRequest)
    requires request.mediaType == Some(TV) && userId in s.users
    requires Find(s.tvShows, TvShowKey, request.tmdbId).Absent?
    requires Details(TvShowDetails, p.tv(request.tmdbId)).Success?
    ensures var r := AddMedia(s, p, userId, request);
      var dto := Details(TvShowDetails, p.tv(request.tmdbId)).value;
      && r.1.Success?
      && r.0.tvShows == s.tvShows + [Row(s.nextTvShowId, ProjectTvShow(dto))]
      && r.0.links == s.links + [Row(s.nextLinkId, NewLink(userId, request.tmdbId, TvLinkType))]
      && r.0.requests == s.requests + [TvShowDetailsRequest(request.tmdbId)]
  {
  }

  /**
   * The catalog step follows the media type: a MOVIE request runs the strict
   * movie save and leaves the TV table alone; a TV request runs the strict TV
   * save and leaves the movie table alone.
   */
  lemma AddMediaDispatch(s: DbState, p: Provider, userId: int, request: AddUserMediaRequest)
    ensures request.mediaType == Some(MOVIE) ==>
      var r := AddMedia(s, p, userId, request);
      var c := SaveMovie(s, p, request.tmdbId, Fail(MovieAlreadyAdded));
      r.0.movies == c.0.movies && r.0.requests == c.0.requests && r.0.tvShows == s.tvShows
    ensures request.mediaType == Some(TV) ==>
      var r := AddMedia(s, p, userId, request);
      var c := SaveTvShow(s, p, request.tmdbId, Fail(TvShowAlreadyAdded));
      r.0.tvShows == c.0.tvShows && r.0.requests == c.0.requests && r.0.movies == s.movies
  {
  }

  /** A failing movie catalog step (duplicate, TMDB failure) is the result, and no link is made. */
  lemma CatalogFailureMeansNoLink(s: DbState, p: Provider, userId: int, request: AddUserMediaRequest)
    requires request.mediaType == Some(MOVIE)
    requires SaveMovie(s, p, request.tmdbId, Fail(MovieAlreadyAdded)).1.Fail?
    ensures var c := SaveMovie(s, p, request.tmdbId, Fail(MovieAlreadyAdded));
      AddMedia(s, p, userId, request) == (c.0, Failure(c.1.error)) && c.0.links == s.links
  {
  }

  /** The same for a failing TV show catalog step. */
  lemma TvCatalogFailureMeansNoLink(s: DbState, p: Provider, userId: int, request: AddUserMediaRequest)
    requires request.mediaType == Some(TV)
    requires SaveTvShow(s, p, request.tmdbId, Fail(TvShowAlreadyAdded)).1.Fail?
    ensures var c := SaveTvShow(s, p, request.tmdbId, Fail(TvShowAlreadyAdded));
      AddMedia(s, p, userId, request) == (c.0, Failure(c.1.error)) && c.0.links == s.links
  {
  }

  /**
   * The catalog row outlives an unknown user: the movie is fetched and saved
   * before the user lookup fails.
   */
  lemma UnknownUserKeepsCatalogRow(s: DbState, p: Provider, userId: int, request: AddUserMediaRequest)
    requires request.mediaType == Some(MOVIE) && userId !in s.users
    requires Find(s.movies, MovieKey, request.tmdbId).Absent?
    requires Details(MovieDetails, p.movie(request.tmdbId)).Success?
    ensures var r := AddMedia(s, p, userId, request);
      && r.1 == Failure(UserNotFound("User not found"))
      && r.0.links == s.links
      && r.0.movies == s.movies + [Row(s.nextMovieId, ProjectMovie(Details(MovieDetails, p.movie(request.tmdbId)).value))]
  {
  }

  /** As written, a MOVIE request is stored as a "tv" link, which does not read back as MOVIE. */
  lemma MovieRequestLinkedAsTv(s: DbState, p: Provider, userId: int, request: AddUserMediaRequest)
    requires request.mediaType == Some(MOVIE)
    requires AddMedia(s, p, userId, request).1.Success?
    ensures var link := AddMedia(s, p, userId, request).1.value.entity;
      link.mediaType == Some("tv") && FromJson(link.mediaType.value) == Some(TV)
  {
    LinkTypesAreJsonNames();
  }

  /**
   * As written, once any user's request has cached a movie, every other
   * user's request for it is refused with MEDIA_ALREADY_EXISTS and links nothing.
   */
  lemma CachedMovieBlocksEveryUser(s: DbState, p: Provider, userId: int, request: AddUserMediaRequest)
    requires request.mediaType == Some(MOVIE)
    requires Find(s.movies, MovieKey, request.tmdbId).Present?
    ensures AddMedia(s, p, userId, request) == (s, Failure(MovieAlreadyAdded))
    ensures Handle(AddMedia(s, p, userId, request).1.error).value.status == 409
  {
  }

  /** The same request twice: the second is refused with MEDIA_ALREADY_EXISTS and changes nothing. */
  lemma {:induction false} RepeatedMovieRequestConflicts(s: DbState, p: Provider, userId: int, request: AddUserMediaRequest)
    requires request.mediaType == Some(MOVIE)
    requires var f := Details(MovieDetails, p.movie(request.tmdbId)); f.Success? ==> f.value.id == Some(request.tmdbId)
    requires AddMedia(s, p, userId, request).1.Success?
    ensures var once := AddMedia(s, p, userId, request);
      AddMedia(once.0, p, userId, request) == (once.0, Failure(MovieAlreadyAdded))
  {
    var f := Details(MovieDetails, p.movie(request.tmdbId));
    FindAfterInsert(s.movies, MovieKey, request.tmdbId, Row(s.nextMovieId, ProjectMovie(f.value)));
  }

  // ---------------------------------------------------------------
  // The flow as evidently intended
  // ---------------------------------------------------------------

  /** Two links for the same user, media type and media. */
  predicate SameLink(a: UserMedia, b: UserMedia) {
    a.userId == b.userId && a.mediaType == b.mediaType && a.tmdbId == b.tmdbId
  }

  /** existsByUserIdAndMediaTypeAndTmdbId. */
  predicate LinkExists(links: seq<Row<UserMedia>>, userId: int, mediaType: string, tmdbId: int) {
    exists i :: 0 <= i < |links| && SameLink(links[i].entity, NewLink(userId, tmdbId, mediaType))
  }

  /** At most one link per (user, media type, media). */
  ghost predicate UniqueLinks(links: seq<Row<UserMedia>>) {
    forall i, j :: 0 <= i < j < |links| ==> !SameLink(links[i].entity, links[j].entity)
  }

  /** The message validation reports for a request without a media type (AddUserMediaRequestDTO's @NotNull). */
  const MediaTypeRequired: AppError := ArgumentNotValid([FieldError("mediaType", Some("mediaType is required"))])

  /** The get-or-create catalog step of the requested media type. */
  function GetOrCreateStep(s: DbState, p: Provider, mt: MediaType, tmdbId: int): (DbState, Outcome<AppError>) {
    if mt == MOVIE then SaveMovie(s, p, tmdbId, Pass) else SaveTvShow(s, p, tmdbId, Pass)
  }

  /**
   * saveMediaToDb as evidently intended: the body is validated, the user is
   * looked up first, the media is got-or-created (cached media is not an
   * error), a link the user already has is refused, and the new link carries
   * the requested media type.
   */
  function AddMediaIntended(s: DbState, p: Provider, userId: int, request: AddUserMediaRequest)
    : (r: (DbState, Result<Row<UserMedia>, AppError>))
    ensures request.mediaType.None? ==> r == (s, Failure(MediaTypeRequired))
    ensures userId !in s.users ==> r.0 == s && r.1.Failure?
    ensures request.mediaType.Some? && userId in s.users ==>
      var mt := request.mediaType.value;
      var c := GetOrCreateStep(s, p, mt, request.tmdbId);
      && (c.1.Fail? ==> r == (c.0, Failure(c.1.error)))
      && (c.1.Pass? && LinkExists(c.0.links, userId, ToJson(mt), request.tmdbId) ==>
            r == (c.0, Failure(MovieAlreadyAdded)))
      && (c.1.Pass? && !LinkExists(c.0.links, userId, ToJson(mt), request.tmdbId) ==>
            r.1.Success? && r.0.links == c.0.links + [r.1.value])
    ensures r.1.Failure? ==> r.0.links == s.links
    ensures r.1.Success? ==>
      && request.mediaType.Some?
      && r.1.value.entity == NewLink(userId, request.tmdbId, ToJson(request.mediaType.value))
      && r.0.links == s.links + [r.1.value]
      && !LinkExists(s.links, userId, ToJson(request.mediaType.value), request.tmdbId)
    ensures ValidState(s) ==> ValidState(r.0)
  {
    match request.mediaType
    case None => (s, Failure(MediaTypeRequired))
    case Some(mt) =>
      if userId !in s.users then (s, Failure(UserNotFound("User not found")))
      else
        var (s1, catalog) := GetOrCreateStep(s, p, mt, request.tmdbId);
        if catalog.Fail? then (s1, Failure(catalog.error))
        else if LinkExists(s1.links, userId, ToJson(mt), request.tmdbId) then (s1, Failure(MovieAlreadyAdded))
        else SaveUserMedia(s1, userId, request.tmdbId, ToJson(mt))
  }

  /**
   * The corrected flow's main path for a TV show: a known user asking for an
   * uncached show that TMDB returns, with no such link yet, gets the show
   * stored and one "tv" link.
   */
  lemma IntendedTvSucceeds(s: DbState, p: Provider, userId: int, request: AddUserMediaRequest)
    requires request.mediaType == Some(TV) && userId in s.users
    requires Find(s.tvShows, TvShowKey, request.tmdbId).Absent?
    requires Details(TvShowDetails, p.tv(request.tmdbId)).Success?
    requires !LinkExists(s.links, userId, "tv", request.tmdbId)
    ensures var r := AddMediaIntended(s, p, userId, request);
      var dto := Details(TvShowDetails, p.tv(request.tmdbId)).value;
      && r.1 == Success(Row(s.nextLinkId, NewLink(userId, request.tmdbId, "tv")))
      && r.0.tvShows == s.tvShows + [Row(s.nextTvShowId, ProjectTvShow(dto))]
  {
    TvText();
    assert ToJson(TV) == "tv";
  }

  /** The intended flow keeps links unique per (user, media type, media). */
  lemma IntendedKeepsLinksUnique(s: DbState, p: Provider, userId: int, request: AddUserMediaRequest)
    requires UniqueLinks(s.links)
    ensures UniqueLinks(AddMediaIntended(s, p, userId, request).0.links)
  {
    var r := AddMediaIntended(s, p, userId, request);
    if r.1.Success? {
      var links := r.0.links;
      var n := |s.links|;
      forall i, j | 0 <= i < j < |links| ensures !SameLink(links[i].entity, links[j].entity) {
        if j == n {
          assert links[i] == s.links[i];
          assert links[j] == r.1.value;
        }
      }
    }
  }

  /** The stored link reads back as the requested media type. */
  lemma IntendedLinkTypeRoundTrips(s: DbState, p: Provider, userId: int, request: AddUserMediaRequest)
    requires AddMediaIntended(s, p, userId, request).1.Success?
    ensures var link := AddMediaIntended(s, p, userId, request).1.value.entity;
      link.mediaType.Some? && FromJson(link.mediaType.value) == request.mediaType
  {
    FromJsonToJson(request.mediaType.value);
  }

  /** A movie cached by another user's request can still be linked, without asking TMDB again. */
  lemma IntendedCachedMovieLinks(s: DbState, p: Provider, userId: int, request: AddUserMediaRequest)
    requires request.mediaType == Some(MOVIE) && userId in s.users
    requires Find(s.movies, MovieKey, request.tmdbId).Present?
    requires !LinkExists(s.links, userId, ToJson(MOVIE), request.tmdbId)
    ensures var r := AddMediaIntended(s, p, userId, request);
      r.1.Success? && r.0.movies == s.movies && r.0.requests == s.requests
  {
  }

  /** The same request twice: the second is refused because the link exists, and changes nothing. */
  lemma {:induction false} IntendedRepeatRejected(s: DbState, p: Provider, userId: int, request: AddUserMediaRequest)
    requires request.mediaType == Some(MOVIE)
    requires var f := Details(MovieDetails, p.movie(request.tmdbId)); f.Success? ==> f.value.id == Some(request.tmdbId)
    requires AddMediaIntended(s, p, userId, request).1.Success?
    ensures var once := AddMediaIntended(s, p, userId, request);
      AddMediaIntended(once.0, p, userId, request) == (once.0, Failure(MovieAlreadyAdded))
  {
    var once := AddMediaIntended(s, p, userId, request);
    var f := Details(MovieDetails, p.movie(request.tmdbId));
    SaveMovieIdempotent(s, p, request.tmdbId);
    var s1 := SaveMovie(s, p, request.tmdbId, Pass).0;
    assert once.0.movies == s1.movies && once.0.requests == s1.requests;
    var last := |once.0.links| - 1;
    assert SameLink(once.0.links[last].entity, NewLink(userId, request.tmdbId, ToJson(MOVIE)));
  }

  /** The controller, over the service it calls. */
  class UserMediaController {
    const service: UserMediaService

    ghost predicate Valid()
      reads this, service, service.movies, service.tvShows, service.links
    {
      service.Valid()
    }

    constructor (service: UserMediaService)
      requires service.Valid()
      ensures Valid() && this.service == service
    {
      this.service := service;
    }

    /** saveMediaToDb: proved to act on the database as AddMedia says. */
    method SaveMediaToDb(userId: int, request: AddUserMediaRequest) returns (r: Result<Row<UserMedia>, AppError>)
      requires Valid()
      modifies service.movies, service.tvShows, service.links, service.tmdb
      ensures Valid()
      ensures (service.State(), r) == AddMedia(old(service.State()), service.tmdb.provider, userId, request)
    {
      if request.mediaType.None? {
        return Failure(NullMediaType);
      }
      var catalog: Outcome<AppError>;
      if request.mediaType.value == MOVIE {
        catalog := service.SaveMovieToDb(request.tmdbId);
      } else {
        catalog := service.SaveTvShowToDb(request.tmdbId);
      }
      if catalog.Fail? {
        return Failure(catalog.error);
      }
      r := service.SaveUserMediaTvShowToDb(userId, request.tmdbId);
    }
  }
}

=== FILE: entities.dfy ===
/**
 * The persistent entities (model/Movie.java, model/TvShow.java,
 * model/UserMedia.java) and the DTOs they are built from
 * (dto/TmdbMovieDTO.java, dto/TmdbTvShowDTO.java, dto/AddUserMediaRequestDTO.java).
 * Every field the Java code declares as a reference type may be null, so it is an Option.
 * The local database id is not part of an entity value: a stored entity is a
 * row that pairs it with the id the table assigned (see Repositories.Row).
 */
module Entities {
  import opened Wrappers
  import opened MediaTypes

  /** A java.time.LocalDate, only ever copied, so kept as its epoch day. */
  datatype Date = Date(epochDay: int)

  /**
   * TMDB's movie details. `backdropPath` is read by both movie projections
   * although TmdbMovieDTO.java does not declare it; it is modelled as the
   * nullable field the projections evidently expect. The Double
   * `vote_average` is kept as a real; no entity copies it.
   */
  datatype TmdbMovieDto = TmdbMovieDto(
    id: Option<int>,
    title: Option<string>,
    releaseDate: Option<Date>,
    posterPath: Option<string>,
    backdropPath: Option<string>,
    overview: Option<string>,
    voteAverage: Option<real>)

  /** TMDB's TV show details. */
  datatype TmdbTvShowDto = TmdbTvShowDto(
    id: Option<int>,
    name: Option<string>,
    overview: Option<string>,
    firstAirDate: Option<Date>,
    posterPath: Option<string>,
    backdropPath: Option<string>,
    voteAverage: Option<real>)

  /** A cached movie (table "movies"). */
  datatype Movie = Movie(
    tmdbId: Option<int>,
    title: Option<string>,
    releaseDate: Option<Date>,
    posterPath: Option<string>,
    backdropPath: Option<string>,
    overview: Option<string>)

  /** A cached TV show (table "tv_shows"). */
  datatype TvShow = TvShow(
    tmdbId: Option<int>,
    title: Option<string>,
    firstAirDate: Option<Date>,
    posterPath: Option<string>,
    backdropPath: Option<string>,
    overview: Option<string>)

  /**
   * A link between a user and a piece of media (table "user_media").
   * `userId` is the id of the referenced User; `mediaType` is a free string
   * column, not the enum.
   */
  datatype UserMedia = UserMedia(
    userId: int,
    tmdbId: int,
    watched: bool,
    personalRating: Option<real>,
    watchDate: Option<Date>,
    mediaType: Option<string>)

  /** The body of POST /users/{user_id}/media. Its mediaType is not validated, so it may be null. */
  datatype AddUserMediaRequest = AddUserMediaRequest(tmdbId: int, mediaType: Option<MediaType>)

  /** The key the movie repository looks rows up by (MovieRepository.findByTmdbId). */
  function MovieKey(m: Movie): Option<int> {
    m.tmdbId
  }

  /** The key the TV show repository looks rows up by (TvShowRepository.findByTmdbId). */
  function TvShowKey(t: TvShow): Option<int> {
    t.tmdbId
  }

  /** Links are keyed by the media's TMDB id. */
  function UserMediaKey(u: UserMedia): Option<int> {
    Some(u.tmdbId)
  }
}

=== FILE: errors.dfy ===
/**
 * The exceptions the core throws and their translation into HTTP error
 * responses (error/GlobalExceptionHandler.java).
 */
module Errors {
  import opened Wrappers
  import opened Tmdb

  /** A field error of a failed bean validation; its default message may be null. */
  datatype FieldError = FieldError(field: string, defaultMessage: Option<string>)

  /** The exceptions that leave a service or controller call. */
  datatype AppError =
    | TmdbFailure(tmdb: TmdbError)                      // TmdbClientException
    | MediaAlreadyExists(message: string)               // MediaAlreadyExistsException
    | UserNotFound(message: string)                     // UserNotFoundException
    | MessageNotReadable                                // HttpMessageNotReadableException
    | DataIntegrityViolation                            // DataIntegrityViolationException
    | ArgumentNotValid(fieldErrors: seq<FieldError>)    // MethodArgumentNotValidException
    | NullMediaType                                     // NullPointerException on a null mediaType
    | NonUniqueResult                                   // more than one row for one findByTmdbId

  /** The JSON error body. */
  datatype ErrorResponse = ErrorResponse(error: string, message: string)

  /** The status line and body a handler answers with. */
  datatype HttpResponse = HttpResponse(status: int, body: ErrorResponse)

  const ServiceUnavailable: int := 503

  /**
   * handleExternal: the upstream status is passed through (503 when there is
   * none) and the error code names the class of the status sent back.
   */
  function HandleExternal(e: TmdbError): (r: HttpResponse)
    ensures e.status.None? ==> r.status == ServiceUnavailable
    ensures e.status.Some? ==> r.status == e.status.value
    ensures r.body.error == "tmdb_client_error" <==> 400 <= r.status < 500
    ensures r.body.error == "tmdb_server_error" <==> 500 <= r.status < 600
    ensures r.body.error == "tmdb_unavailable" <==> !(400 <= r.status < 600)
    ensures r.body.message == e.message
  {
    var code := match e.status case None => ServiceUnavailable case Some(s) => s;
    var error :=
      if code >= 400 && code < 500 then "tmdb_client_error"
      else if code >= 500 && code < 600 then "tmdb_server_error"
      else "tmdb_unavailable";
    HttpResponse(code, ErrorResponse(error, e.message))
  }

  /** handleValidation's message: "field: defaultMessage" of the first field error, if any. */
  function ValidationMessage(errors: seq<FieldError>): (msg: string)
    ensures errors == [] ==> msg == "Invalid request body"
    ensures errors != [] ==> errors[0].field + ": " <= msg
    ensures errors != [] && errors[0].defaultMessage.Some? ==>
      msg == errors[0].field + ": " + errors[0].defaultMessage.value
    ensures errors != [] && errors[0].defaultMessage.None? ==> msg == errors[0].field + ": null"
  {
    if errors == [] then "Invalid request body"
    else
      var first := errors[0];
      first.field + ": " + match first.defaultMessage case None => "null" case Some(m) => m
  }

  /**
   * The response the exception handler sends for an error; None for the
   * exceptions it has no handler for (Spring's default handling applies).
   */
  function Handle(err: AppError): (r: Option<HttpResponse>)
    ensures r.None? <==> err.NullMediaType? || err.NonUniqueResult?
    ensures err.TmdbFailure? ==> r == Some(HandleExternal(err.tmdb))
    ensures err.MediaAlreadyExists? ==>
      r == Some(HttpResponse(409, ErrorResponse("MEDIA_ALREADY_EXISTS", err.message)))
    ensures err.UserNotFound? ==>
      r == Some(HttpResponse(404, ErrorResponse("USER_NOT_FOUND", err.message)))
    ensures err.MessageNotReadable? ==>
      r == Some(HttpResponse(400, ErrorResponse("INVALID_REQUEST_BODY",
                                                "Malformed JSON or invalid field value in request body")))
    ensures err.DataIntegrityViolation? ==>
      r == Some(HttpResponse(409, ErrorResponse("CONSTRAINT_VIOLATION", "Duplicate or invalid data")))
    ensures err.ArgumentNotValid? ==>
      r == Some(HttpResponse(400, ErrorResponse("VALIDATION_ERROR", ValidationMessage(err.fieldErrors))))
  {
    match err
    case TmdbFailure(e) => Some(HandleExternal(e))
    case MediaAlreadyExists(m) => Some(HttpResponse(409, ErrorResponse("MEDIA_ALREADY_EXISTS", m)))
    case UserNotFound(m) => Some(HttpResponse(404, ErrorResponse("USER_NOT_FOUND", m)))
    case MessageNotReadable =>
      Some(HttpResponse(400, ErrorResponse("INVALID_REQUEST_BODY",
                                           "Malformed JSON or invalid field value in request body")))
    case DataIntegrityViolation =>
      Some(HttpResponse(409, ErrorResponse("CONSTRAINT_VIOLATION", "Duplicate or invalid data")))
    case ArgumentNotValid(errors) =>
      Some(HttpResponse(400, ErrorResponse("VALIDATION_ERROR", ValidationMessage(errors))))
    case NullMediaType => None
    case NonUniqueResult => None
  }

  /** Only a TMDB failure can be answered outside 4xx: every other handled error is the client's. */
  lemma OnlyTmdbFailuresLeave4xx(err: AppError)
    requires Handle(err).Some? && !err.TmdbFailure?
    ensures 400 <= Handle(err).value.status < 500
  {
  }

  /** An upstream error status reaches the API client unchanged, with the matching code. */
  lemma UpstreamStatusPassesThrough<T>(action: string, call: CallOutcome<T>)
    requires call.ResponseError?
    ensures var r := Handle(TmdbFailure(Execute(action, call).error));
      r.Some? && r.value.status == call.status &&
      (400 <= call.status < 500 ==> r.value.body.error == "tmdb_client_error") &&
      (500 <= call.status < 600 ==> r.value.body.error == "tmdb_server_error")
  {
  }

  /**
   * As written, a transport failure or an empty payload (no status) is
   * answered with 503 and, because 503 lies in [500, 600), the code
   * "tmdb_server_error": "tmdb_unavailable" is never sent for them.
   */
  lemma NoStatusReportedAsServerError<T>(ep: DetailsEndpoint, call: CallOutcome<T>)
    requires call.ClientError? || call == Ok(None)
    ensures var r := Handle(TmdbFailure(Details(ep, call).error));
      r.Some? && r.value.status == 503 && r.value.body.error == "tmdb_server_error"
  {
  }

  /**
   * handleExternal as evidently intended: a failure with no upstream status is
   * "tmdb_unavailable" (503); a status keeps the client/server split.
   */
  function HandleExternalIntended(e: TmdbError): (r: HttpResponse)
    ensures e.status.None? ==> r == HttpResponse(ServiceUnavailable, ErrorResponse("tmdb_unavailable", e.message))
    ensures e.status.Some? ==> r == HandleExternal(e)
  {
    match e.status
    case None => HttpResponse(ServiceUnavailable, ErrorResponse("tmdb_unavailable", e.message))
    case Some(_) => HandleExternal(e)
  }

  /** With the intended handler, the code tells a missing status apart from an upstream 5xx. */
  lemma IntendedCodeSeparatesNoStatus(e: TmdbError, f: TmdbError)
    requires e.status.None? && f.status.Some? && 500 <= f.status.value < 600
    ensures HandleExternalIntended(e).body.error == "tmdb_unavailable"
    ensures HandleExternalIntended(f).body.error == "tmdb_server_error"
    ensures HandleExternal(e).body.error == HandleExternal(f).body.error
  {
  }
}

=== FILE: media_type.dfy ===
/** The `MediaType` enum and its JSON encoding (model/MediaType.java). */
module MediaTypes {
  import opened Wrappers

  datatype MediaType = TV | MOVIE

  /** The constant's name, as `Enum.name()` returns it. */
  function Name(m: MediaType): string {
    match m
    case TV => "TV"
    case MOVIE => "MOVIE"
  }

  // ---------------------------------------------------------------
  // The java.lang.String operations the encoding is built from
  // ---------------------------------------------------------------

  /** `String.trim` drops every char whose code is at most U+0020. */
  predicate IsBlank(c: char) {
    c <= ' '
  }

  /** The blank chars at the front of `s` removed. */
  function TrimStart(s: string): (r: string)
    ensures |r| <= |s| && r == s[|s| - |r|..]
    ensures forall i :: 0 <= i < |s| - |r| ==> IsBlank(s[i])
    ensures r == [] || !IsBlank(r[0])
  {
    if |s| > 0 && IsBlank(s[0]) then TrimStart(s[1..]) else s
  }

  /** The blank chars at the back of `s` removed. */
  function TrimEnd(s: string): (r: string)
    ensures |r| <= |s| && r == s[..|r|]
    ensures forall i :: |r| <= i < |s| ==> IsBlank(s[i])
    ensures r == [] || !IsBlank(r[|r| - 1])
  {
    if |s| > 0 && IsBlank(s[|s| - 1]) then TrimEnd(s[..|s| - 1]) else s
  }

  /** `String.trim`: the front is scanned first, then the back of what is left. */
  function Trim(s: string): string {
    TrimEnd(TrimStart(s))
  }

  /**
   * Upper case of one char, for the chars whose upper case is an ASCII letter:
   * 'a'..'z', the dotless i (U+0131) and the long s (U+017F). Every other char
   * is kept as it is; its real upper case is never an ASCII letter, so keeping
   * it does not change which constant, if any, a string names.
   */
  function UpperChar(c: char): char {
    if 'a' <= c <= 'z' then (c as int - 32) as char
    else if c == '\U{131}' then 'I'
    else if c == '\U{17F}' then 'S'
    else c
  }

  /** Lower case of one char, for the ASCII letters 'A'..'Z'. */
  function LowerChar(c: char): char {
    if 'A' <= c <= 'Z' then (c as int + 32) as char else c
  }

  /** `s` with `f` applied to every char. */
  function MapChars(f: char -> char, s: string): (r: string)
    ensures |r| == |s|
  {
    seq(|s|, i requires 0 <= i < |s| => f(s[i]))
  }

  /** `String.toUpperCase` (default, non-Turkish locale). */
  function ToUpper(s: string): string {
    MapChars(UpperChar, s)
  }

  /** `String.toLowerCase` as used on the enum names, which are ASCII. */
  function ToLower(s: string): string {
    MapChars(LowerChar, s)
  }

  // ---------------------------------------------------------------
  // The JSON encoding
  // ---------------------------------------------------------------

  /** `toJson`: the constant's name in lower case. */
  function ToJson(m: MediaType): (r: string)
    ensures m == TV ==> r == "tv"
    ensures m == MOVIE ==> r == "movie"
  {
    assert LowerChar('T') == 't' && LowerChar('V') == 'v';
    assert LowerChar('M') == 'm' && LowerChar('O') == 'o' && LowerChar('I') == 'i' && LowerChar('E') == 'e';
    ToLower(Name(m))
  }

  /**
   * `fromJson`: `MediaType.valueOf(value.trim().toUpperCase())`. `valueOf`
   * returns the constant whose name is exactly that text and throws
   * IllegalArgumentException (here: None) when there is none.
   */
  function FromJson(value: string): (r: Option<MediaType>)
    ensures r.Some? ==> Name(r.value) == ToUpper(Trim(value))
    ensures r.None? ==> forall m :: Name(m) != ToUpper(Trim(value))
  {
    var name := ToUpper(Trim(value));
    if name == "TV" then Some(TV)
    else if name == "MOVIE" then Some(MOVIE)
    else None
  }

  // ---------------------------------------------------------------
  // Properties of the encoding
  // ---------------------------------------------------------------

  /** "tv" has no blanks to trim and upper-cases to "TV". */
  lemma TvText()
    ensures Trim("tv") == "tv" && ToUpper("tv") == "TV"
    ensures FromJson("tv") == Some(TV)
  {
    assert TrimStart("tv") == "tv";
    assert TrimEnd("tv") == "tv";
    assert UpperChar('t') == 'T' && UpperChar('v') == 'V';
  }

  /** "movie" has no blanks to trim and upper-cases to "MOVIE". */
  lemma MovieText()
    ensures Trim("movie") == "movie" && ToUpper("movie") == "MOVIE"
    ensures FromJson("movie") == Some(MOVIE)
  {
    assert TrimStart("movie") == "movie";
    assert TrimEnd("movie") == "movie";
    assert UpperChar('m') == 'M' && UpperChar('o') == 'O' && UpperChar('v') == 'V';
    assert UpperChar('i') == 'I' && UpperChar('e') == 'E';
  }

  /** Decoding what was encoded gives back the same constant. */
  lemma FromJsonToJson(m: MediaType)
    ensures FromJson(ToJson(m)) == Some(m)
  {
    if m == TV {
      TvText();
      assert ToJson(m) == "tv";
    } else {
      MovieText();
      assert ToJson(m) == "movie";
    }
  }

  /** Blank chars put in front of `t` leave nothing of themselves after TrimStart. */
  lemma {:induction false} TrimStartBlankPrefix(pre: string, t: string)
    requires forall i :: 0 <= i < |pre| ==> IsBlank(pre[i])
    ensures TrimStart(pre + t) == TrimStart(t)
  {
    if pre == [] {
      assert pre + t == t;
    } else {
      assert (pre + t)[0] == pre[0];
      assert (pre + t)[1..] == pre[1..] + t;
      TrimStartBlankPrefix(pre[1..], t);
    }
  }

  /** Blank chars put behind `t` leave nothing of themselves after TrimEnd. */
  lemma {:induction false} TrimEndBlankSuffix(t: string, post: string)
    requires forall i :: 0 <= i < |post| ==> IsBlank(post[i])
    ensures TrimEnd(t + post) == TrimEnd(t)
  {
    if post == [] {
      assert t + post == t;
    } else {
      var last := |post| - 1;
      assert (t + post)[|t + post| - 1] == post[last];
      assert (t + post)[..|t + post| - 1] == t + post[..last];
      TrimEndBlankSuffix(t, post[..last]);
    }
  }

  /** What comes after the first non-blank char goes through TrimStart untouched. */
  lemma {:induction false} TrimStartAppend(s: string, post: string)
    ensures TrimStart(s) != [] ==> TrimStart(s + post) == TrimStart(s) + post
    ensures TrimStart(s) == [] ==> TrimStart(s + post) == TrimStart(post)
  {
    if s == [] {
      assert s + post == post;
    } else {
      assert (s + post)[0] == s[0];
      if IsBlank(s[0]) {
        assert (s + post)[1..] == s[1..] + post;
        TrimStartAppend(s[1..], post);
      }
    }
  }

  /** `String.trim` ignores blank padding on both sides. */
  lemma TrimPadding(pre: string, s: string, post: string)
    requires forall i :: 0 <= i < |pre| ==> IsBlank(pre[i])
    requires forall i :: 0 <= i < |post| ==> IsBlank(post[i])
    ensures Trim(pre + s + post) == Trim(s)
  {
    var mid := s + post;
    assert pre + s + post == pre + mid;
    TrimStartBlankPrefix(pre, mid);
    TrimStartAppend(s, post);
    var front := TrimStart(s);
    if front != [] {
      TrimEndBlankSuffix(front, post);
    } else {
      TrimStartBlankPrefix(post, []);
      assert post + [] == post;
      assert TrimStart(post) == [];
    }
  }

  /** `fromJson` ignores surrounding whitespace and control chars. */
  lemma FromJsonIgnoresPadding(pre: string, s: string, post: string)
    requires forall i :: 0 <= i < |pre| ==> IsBlank(pre[i])
    requires forall i :: 0 <= i < |post| ==> IsBlank(post[i])
    ensures FromJson(pre + s + post) == FromJson(s)
  {
    TrimPadding(pre, s, post);
  }

  /** A char map that keeps blank chars blank and the others non-blank commutes with TrimStart. */
  lemma {:induction false} TrimStartMap(f: char -> char, s: string)
    requires forall c :: IsBlank(f(c)) == IsBlank(c)
    ensures TrimStart(MapChars(f, s)) == MapChars(f, TrimStart(s))
  {
    if s != [] && IsBlank(s[0]) {
      assert MapChars(f, s)[1..] == MapChars(f, s[1..]);
      TrimStartMap(f, s[1..]);
    }
  }

  /** The same map commutes with TrimEnd. */
  lemma {:induction false} TrimEndMap(f: char -> char, s: string)
    requires forall c :: IsBlank(f(c)) == IsBlank(c)
    ensures TrimEnd(MapChars(f, s)) == MapChars(f, TrimEnd(s))
  {
    if s != [] && IsBlank(s[|s| - 1]) {
      assert MapChars(f, s)[..|s| - 1] == MapChars(f, s[..|s| - 1]);
      TrimEndMap(f, s[..|s| - 1]);
    }
  }

  /** Trimming and then changing case is the same as changing case and then trimming. */
  lemma TrimMap(f: char -> char, s: string)
    requires forall c :: IsBlank(f(c)) == IsBlank(c)
    ensures Trim(MapChars(f, s)) == MapChars(f, Trim(s))
  {
    TrimStartMap(f, s);
    TrimEndMap(f, TrimStart(s));
  }

  /** Case changes never turn a blank char into a non-blank one or back. */
  lemma CaseKeepsBlank()
    ensures forall c :: IsBlank(LowerChar(c)) == IsBlank(c)
    ensures forall c :: IsBlank(UpperChar(c)) == IsBlank(c)
  {
  }

  /** Upper-casing after a case change is the same as upper-casing alone. */
  lemma UpperAbsorbsCase(c: char)
    ensures UpperChar(LowerChar(c)) == UpperChar(c)
    ensures UpperChar(UpperChar(c)) == UpperChar(c)
  {
  }

  /** Upper-casing after lower-casing is upper-casing alone. */
  lemma UpperAfterLower(t: string)
    ensures ToUpper(ToLower(t)) == ToUpper(t)
  {
    forall i | 0 <= i < |t| ensures ToUpper(ToLower(t))[i] == ToUpper(t)[i] {
      UpperAbsorbsCase(t[i]);
    }
  }

  /** Upper-casing twice is upper-casing once. */
  lemma UpperIdempotent(t: string)
    ensures ToUpper(ToUpper(t)) == ToUpper(t)
  {
    forall i | 0 <= i < |t| ensures ToUpper(ToUpper(t))[i] == ToUpper(t)[i] {
      UpperAbsorbsCase(t[i]);
    }
  }

  /** `fromJson` only looks at the trimmed, upper-cased text. */
  lemma FromJsonByName(a: string, b: string)
    requires ToUpper(Trim(a)) == ToUpper(Trim(b))
    ensures FromJson(a) == FromJson(b)
  {
  }

  /** `fromJson` ignores letter case: lower-casing or upper-casing the text first changes nothing. */
  lemma FromJsonIgnoresCase(s: string)
    ensures FromJson(ToLower(s)) == FromJson(s)
    ensures FromJson(ToUpper(s)) == FromJson(s)
  {
    CaseKeepsBlank();
    TrimMap(LowerChar, s);
    TrimMap(UpperChar, s);
    UpperAfterLower(Trim(s));
    UpperIdempotent(Trim(s));
    FromJsonByName(ToLower(s), s);
    FromJsonByName(ToUpper(s), s);
  }

  /** "Movie" has no blanks to trim and upper-cases to "MOVIE". */
  lemma MixedCaseMovieText()
    ensures Trim("Movie") == "Movie" && ToUpper("Movie") == "MOVIE"
  {
    assert TrimStart("Movie") == "Movie";
    assert UpperChar('M') == 'M' && UpperChar('o') == 'O' && UpperChar('v') == 'V';
    assert UpperChar('i') == 'I' && UpperChar('e') == 'E';
  }

  /** The text "Movie" names the MOVIE constant. */
  lemma FromJsonMixedCase()
    ensures FromJson("Movie") == Some(MOVIE)
  {
    MixedCaseMovieText();
  }

  /** The text " Movie " names the MOVIE constant. */
  lemma FromJsonPaddedMovie()
    ensures FromJson(" Movie ") == Some(MOVIE)
  {
    var padded := " " + "Movie" + " ";
    assert padded == " Movie ";
    FromJsonIgnoresPadding(" ", "Movie", " ");
    FromJsonMixedCase();
  }

  /** The text "movies" names no constant. */
  lemma FromJsonRejectsPlural()
    ensures FromJson("movies") == None
  {
    assert Trim("movies") == "movies";
    assert |ToUpper("movies")| == 6;
  }
}

=== FILE: repositories.dfy ===
/**
 * The JPA repositories the core uses (repository/MovieRepository.java,
 * repository/TvShowRepository.java, repository/UserMediaRepository.java,
 * repository/UserRepository.java), as tables of rows.
 */
module Repositories {
  import opened Wrappers

  /** A stored entity with the id the database assigned to it (IDENTITY generation). */
  datatype Row<E> = Row(id: int, entity: E)

  /**
   * What a derived `Optional<E> findByTmdbId(id)` query yields: empty, the one
   * matching row, or an IncorrectResultSizeDataAccessException when more than
   * one row matches.
   */
  datatype Lookup<E> = Absent | Present(row: Row<E>) | NonUnique

  /**
   * findByTmdbId: absent when no row has the key, the row when exactly one
   * has it, NonUnique when two or more have it.
   */
  function Find<E>(rows: seq<Row<E>>, key: E -> Option<int>, k: int): (r: Lookup<E>)
    ensures r.Absent? <==> forall i :: 0 <= i < |rows| ==> key(rows[i].entity) != Some(k)
    ensures r.Present? ==> r.row in rows && key(r.row.entity) == Some(k)
    ensures r.Present? ==> forall i :: 0 <= i < |rows| && key(rows[i].entity) == Some(k) ==> rows[i] == r.row
    ensures r.NonUnique? <==>
      exists i, j :: 0 <= i < j < |rows| && key(rows[i].entity) == Some(k) && key(rows[j].entity) == Some(k)
  {
    if rows == [] then Absent
    else
      var init := rows[..|rows| - 1];
      var last := rows[|rows| - 1];
      assert forall i :: 0 <= i < |init| ==> init[i] == rows[i];
      var before := Find(init, key, k);
      if key(last.entity) != Some(k) then before
      else
        match before
        case Absent => Present(last)
        case Present(_) =>
          var i :| 0 <= i < |init| && key(init[i].entity) == Some(k);
          assert key(rows[i].entity) == Some(k) && key(rows[|rows| - 1].entity) == Some(k);
          NonUnique
        case NonUnique => NonUnique
  }

  /** Once a row with key `k` is added where there was none, the lookup finds exactly that row. */
  lemma FindAfterInsert<E>(rows: seq<Row<E>>, key: E -> Option<int>, k: int, row: Row<E>)
    requires Find(rows, key, k).Absent?
    requires key(row.entity) == Some(k)
    ensures Find(rows + [row], key, k) == Present(row)
  {
    assert (rows + [row])[..|rows|] == rows;
  }

  /** A row whose key is not `k` does not change the lookup of `k`. */
  lemma FindUnaffected<E>(rows: seq<Row<E>>, key: E -> Option<int>, k: int, row: Row<E>)
    requires key(row.entity) != Some(k)
    ensures Find(rows + [row], key, k) == Find(rows, key, k)
  {
    assert (rows + [row])[..|rows|] == rows;
  }

  /**
   * The table invariant: every row has an id below the next one to be
   * handed out, and ids grow with the position, so no two rows share one.
   */
  ghost predicate WellFormed<E>(rows: seq<Row<E>>, nextId: int) {
    && (forall i :: 0 <= i < |rows| ==> rows[i].id < nextId)
    && (forall i, j :: 0 <= i < j < |rows| ==> rows[i].id < rows[j].id)
  }

  /** `save` of a new entity: it gets the next id and becomes the last row. */
  function Insert<E>(rows: seq<Row<E>>, nextId: int, entity: E): (r: (seq<Row<E>>, int))
    ensures |r.0| == |rows| + 1 && r.0[..|rows|] == rows
    ensures r.0[|rows|] == Row(nextId, entity)
    ensures r.1 == nextId + 1
    ensures WellFormed(rows, nextId) ==> WellFormed(r.0, r.1)
  {
    (rows + [Row(nextId, entity)], nextId + 1)
  }

  /** One repository table, updated in place by `save`. */
  class Table<E> {
    var rows: seq<Row<E>>
    var nextId: int
    const key: E -> Option<int>

    ghost predicate Valid()
      reads this
    {
      WellFormed(rows, nextId)
    }

    constructor (key: E -> Option<int>)
      ensures Valid() && rows == [] && this.key == key
    {
      rows := [];
      nextId := 1;
      this.key := key;
    }

    /** findByTmdbId. */
    function FindByTmdbId(k: int): Lookup<E>
      reads this
    {
      Find(rows, key, k)
    }

    /** save(entity) of an entity without an id: appends it with a fresh id and returns the stored row. */
    method Save(entity: E) returns (row: Row<E>)
      requires Valid()
      modifies this`rows, this`nextId
      ensures Valid()
      ensures (rows, nextId) == Insert(old(rows), old(nextId), entity)
      ensures row == Row(old(nextId), entity)
    {
      row := Row(nextId, entity);
      rows, nextId := Insert(rows, nextId, entity).0, nextId + 1;
    }
  }

  /** The users table; the core only asks whether an id exists (findById). */
  class UserRepository {
    var ids: set<int>

    constructor (ids: set<int>)
      ensures this.ids == ids
    {
      this.ids := ids;
    }
  }
}

=== FILE: services.dfy ===
/**
 * The service classes (service/MovieService.java, service/TvShowService.java,
 * service/UserMediaService.java): each method checks, fetches and saves
 * through the repositories in place, and is proved to do what the value-level
 * functions of module Catalog say.
 */
module Services {
  import opened Wrappers
  import opened Entities
  import opened Tmdb
  import opened Errors
  import opened Repositories
  import opened Catalog

  /** MovieService: get-or-create of movies. */
  class MovieService {
    const movies: Table<Movie>
    const tmdb: TmdbClient

    ghost predicate Valid()
      reads this, movies
    {
      movies.Valid() && movies.key == MovieKey
    }

    constructor (movies: Table<Movie>, tmdb: TmdbClient)
      requires movies.Valid() && movies.key == MovieKey
      ensures Valid() && this.movies == movies && this.tmdb == tmdb
    {
      this.movies := movies;
      this.tmdb := tmdb;
    }

    /**
     * saveMovieToDb: when no movie has the request's tmdbId, fetch its details
     * and save their projection; otherwise do nothing, without an error.
     */
    method SaveMovieToDb(request: AddUserMediaRequest) returns (r: Outcome<AppError>)
      requires Valid()
      modifies movies, tmdb
      ensures Valid()
      ensures var step := SaveIfAbsent(old(movies.rows), old(movies.nextId), MovieKey, ProjectMovie, request.tmdbId,
                                       Details(MovieDetails, tmdb.provider.movie(request.tmdbId)), Pass);
        && movies.rows == step.rows && movies.nextId == step.nextId && r == step.outcome
        && tmdb.requests == old(tmdb.requests) + (if step.fetched then [MovieDetailsRequest(request.tmdbId)] else [])
    {
      r := Pass;
      var found := movies.FindByTmdbId(request.tmdbId);
      if found.NonUnique? {
        r := Fail(NonUniqueResult);
      } else if found.Absent? {
        var details := tmdb.FetchMovieDetails(request.tmdbId);
        if details.Failure? {
          r := Fail(TmdbFailure(details.error));
        } else {
          var saved := movies.Save(ProjectMovie(details.value));
        }
      }
    }
  }

  /** TvShowService: get-or-create of TV shows. */
  class TvShowService {
    const tvShows: Table<TvShow>
    const tmdb: TmdbClient

    ghost predicate Valid()
      reads this, tvShows
    {
      tvShows.Valid() && tvShows.key == TvShowKey
    }

    constructor (tvShows: Table<TvShow>, tmdb: TmdbClient)
      requires tvShows.Valid() && tvShows.key == TvShowKey
      ensures Valid() && this.tvShows == tvShows && this.tmdb == tmdb
    {
      this.tvShows := tvShows;
      this.tmdb := tmdb;
    }

    /**
     * saveTvShowToDb: when no TV show has the request's tmdbId, fetch its
     * details and save their projection; otherwise do nothing, without an error.
     */
    method SaveTvShowToDb(request: AddUserMediaRequest) returns (r: Outcome<AppError>)
      requires Valid()
      modifies tvShows, tmdb
      ensures Valid()
      ensures var step := SaveIfAbsent(old(tvShows.rows), old(tvShows.nextId), TvShowKey, ProjectTvShow, request.tmdbId,
                                       Details(TvShowDetails, tmdb.provider.tv(request.tmdbId)), Pass);
        && tvShows.rows == step.rows && tvShows.nextId == step.nextId && r == step.outcome
        && tmdb.requests == old(tmdb.requests) + (if step.fetched then [TvShowDetailsRequest(request.tmdbId)] else [])
    {
      r := Pass;
      var found := tvShows.FindByTmdbId(request.tmdbId);
      if found.NonUnique? {
        r := Fail(NonUniqueResult);
      } else if found.Absent? {
        var details := tmdb.FetchTvShowDetails(request.tmdbId);
        if details.Failure? {
          r := Fail(TmdbFailure(details.error));
        } else {
          var saved := tvShows.Save(ProjectTvShow(details.value));
        }
      }
    }
  }

  /** UserMediaService: strict catalog saves and link creation over all four tables. */
  class UserMediaService {
    const movies: Table<Movie>
    const tvShows: Table<TvShow>
    const users: UserRepository
    const links: Table<UserMedia>
    const tmdb: TmdbClient

    ghost predicate Valid()
      reads this, movies, tvShows, links
    {
      && movies.Valid() && movies.key == MovieKey
      && tvShows.Valid() && tvShows.key == TvShowKey
      && links.Valid() && links.key == UserMediaKey
    }

    /** The database as the value-level functions see it. */
    ghost function State(): DbState
      reads this, movies, tvShows, users, links, tmdb
    {
      DbState(movies.rows, movies.nextId, tvShows.rows, tvShows.nextId, users.ids, links.rows, links.nextId,
              tmdb.requests)
    }

    constructor (movies: Table<Movie>, tvShows: Table<TvShow>, users: UserRepository, links: Table<UserMedia>,
                 tmdb: TmdbClient)
      requires movies.Valid() && movies.key == MovieKey
      requires tvShows.Valid() && tvShows.key == TvShowKey
      requires links.Valid() && links.key == UserMediaKey
      ensures Valid()
      ensures this.movies == movies && this.tvShows == tvShows && this.users == users
      ensures this.links == links && this.tmdb == tmdb
    {
      this.movies := movies;
      this.tvShows := tvShows;
      this.users := users;
      this.links := links;
      this.tmdb := tmdb;
    }

    /**
     * saveMovieToDb: a tmdbId already in the movie table is a
     * MediaAlreadyExistsException, with no fetch; otherwise the fetched
     * details are projected and saved.
     */
    method SaveMovieToDb(tmdbId: int) returns (r: Outcome<AppError>)
      requires Valid()
      modifies movies, tmdb
      ensures Valid()
      ensures (State(), r) == SaveMovie(old(State()), tmdb.provider, tmdbId, Fail(MovieAlreadyAdded))
    {
      r := Pass;
      var found := movies.FindByTmdbId(tmdbId);
      if found.NonUnique? {
        r := Fail(NonUniqueResult);
      } else if found.Present? {
        r := Fail(MovieAlreadyAdded);
      } else {
        var details := tmdb.FetchMovieDetails(tmdbId);
        if details.Failure? {
          r := Fail(TmdbFailure(details.error));
        } else {
          var saved := movies.Save(ProjectMovie(details.value));
        }
      }
    }

    /** saveTvShowToDb: the same on the TV show table. */
    method SaveTvShowToDb(tmdbId: int) returns (r: Outcome<AppError>)
      requires Valid()
      modifies tvShows, tmdb
      ensures Valid()
      ensures (State(), r) == SaveTvShow(old(State()), tmdb.provider, tmdbId, Fail(TvShowAlreadyAdded))
    {
      r := Pass;
      var found := tvShows.FindByTmdbId(tmdbId);
      if found.NonUnique? {
        r := Fail(NonUniqueResult);
      } else if found.Present? {
        r := Fail(TvShowAlreadyAdded);
      } else {
        var details := tmdb.FetchTvShowDetails(tmdbId);
        if details.Failure? {
          r := Fail(TmdbFailure(details.error));
        } else {
          var saved := tvShows.Save(ProjectTvShow(details.value));
        }
      }
    }

    /** saveUserMediaMovieToDb: one new "movie" link for a known user. */
    method SaveUserMediaMovieToDb(userId: int, tmdbId: int) returns (r: Result<Row<UserMedia>, AppError>)
      requires Valid()
      modifies links
      ensures Valid()
      ensures (State(), r) == SaveUserMedia(old(State()), userId, tmdbId, MovieLinkType)
    {
      r := SaveLink(userId, tmdbId, MovieLinkType);
    }

    /** saveUserMediaTvShowToDb: one new "tv" link for a known user. */
    method SaveUserMediaTvShowToDb(userId: int, tmdbId: int) returns (r: Result<Row<UserMedia>, AppError>)
      requires Valid()
      modifies links
      ensures Valid()
      ensures (State(), r) == SaveUserMedia(old(State()), userId, tmdbId, TvLinkType)
    {
      r := SaveLink(userId, tmdbId, TvLinkType);
    }

    /** The body the two link methods share; they differ only in the type string. */
    method SaveLink(userId: int, tmdbId: int, mediaType: string) returns (r: Result<Row<UserMedia>, AppError>)
      requires Valid()
      modifies links
      ensures Valid()
      ensures (State(), r) == SaveUserMedia(old(State()), userId, tmdbId, mediaType)
    {
      if userId in users.ids {
        var row := links.Save(NewLink(userId, tmdbId, mediaType));
        r := Success(row);
      } else {
        r := Failure(UserNotFound("User not found"));
      }
    }
  }
}

=== FILE: tmdb_client.dfy ===
/**
 * The failure handling of the TMDB client (client/tmdb/TmdbClient.java) and
 * the exception it throws (error/TmdbClientException.java).
 * The HTTP exchange itself is not modelled: each request is represented by
 * the outcome the RestClient call produced, and the provider's answers are a
 * parameter (`Provider`).
 */
module Tmdb {
  import opened Wrappers
  import opened Entities

  /** An HTTP status code as Spring's HttpStatusCode admits it: three digits. */
  type StatusCode = c: int | 100 <= c <= 999 witness 500

  /**
   * What the RestClient call inside `execute` did: returned a payload (which
   * Jackson may have left null), threw RestClientResponseException (the
   * provider answered with an error status), or threw any other
   * RestClientException (network, deserialisation, ...).
   */
  datatype CallOutcome<T> =
    | Ok(payload: Option<T>)
    | ResponseError(status: StatusCode, body: Option<string>)
    | ClientError(reason: string)

  /** TmdbClientException: a message and the upstream status, null when there was none. */
  datatype TmdbError = TmdbError(message: string, status: Option<StatusCode>)

  // ---------------------------------------------------------------
  // Decimal rendering of the status in the exception message
  // ---------------------------------------------------------------

  function DigitChar(d: int): char
    requires 0 <= d < 10
  {
    (48 + d) as char
  }

  function DigitValue(c: char): int {
    c as int - 48
  }

  predicate IsDigit(c: char) {
    '0' <= c <= '9'
  }

  /** `Integer.toString` of a non-negative number. */
  function Decimal(n: nat): (s: string)
    ensures |s| >= 1
    ensures forall i :: 0 <= i < |s| ==> IsDigit(s[i])
    ensures n >= 10 ==> s[0] != '0'
    decreases n
  {
    if n < 10 then [DigitChar(n)] else Decimal(n / 10) + [DigitChar(n % 10)]
  }

  /** Reads a string of decimal digits back as a number. */
  function ParseDecimal(s: string): int {
    if s == [] then 0 else ParseDecimal(s[..|s| - 1]) * 10 + DigitValue(s[|s| - 1])
  }

  /** The decimal text of a number reads back as that number: the message determines the status. */
  lemma {:induction false} DecimalRoundTrip(n: nat)
    ensures ParseDecimal(Decimal(n)) == n
    decreases n
  {
    var s := Decimal(n);
    if n >= 10 {
      assert s[..|s| - 1] == Decimal(n / 10);
      DecimalRoundTrip(n / 10);
    }
  }

  // ---------------------------------------------------------------
  // execute: classification of the call's outcome
  // ---------------------------------------------------------------

  /** Longest snippet of an error body that `execute` writes to the log. */
  const MaxLoggedBody: nat := 200

  /**
   * The logged snippet of an error response's body: a null body is treated as
   * "", and at most the first 200 chars of it are kept.
   */
  function TrimmedBody(body: Option<string>): (t: string)
    ensures |t| <= MaxLoggedBody
    ensures body.None? ==> t == ""
    ensures body.Some? ==> t <= body.value
    ensures body.Some? && |body.value| <= MaxLoggedBody ==> t == body.value
    ensures body.Some? && |body.value| > MaxLoggedBody ==> |t| == MaxLoggedBody
  {
    match body
    case None => ""
    case Some(b) => b[..if |b| < MaxLoggedBody then |b| else MaxLoggedBody]
  }

  /** The message of a failed call that has a status. */
  function FailedWithStatus(action: string, status: StatusCode): string {
    "TMDB " + action + " failed with status " + Decimal(status)
  }

  /**
   * `execute(action, call)`: the supplier's value is returned as is; a
   * response error becomes a TmdbClientException carrying the upstream
   * status; any other client error becomes one with no status.
   */
  function Execute<T>(action: string, call: CallOutcome<T>): (r: Result<Option<T>, TmdbError>)
    ensures r.Success? <==> call.Ok?
    ensures call.Ok? ==> r.value == call.payload
    ensures r.Failure? ==> (r.error.status.Some? <==> call.ResponseError?)
    ensures call.ResponseError? ==>
      r.error.status == Some(call.status) && r.error.message == FailedWithStatus(action, call.status)
    ensures call.ClientError? ==> r.error.message == "TMDB " + action + " failed"
    ensures r.Failure? ==> "TMDB " + action + " failed" <= r.error.message
  {
    match call
    case Ok(payload) => Success(payload)
    case ResponseError(status, _) => Failure(TmdbError(FailedWithStatus(action, status), Some(status)))
    case ClientError(_) => Failure(TmdbError("TMDB " + action + " failed", None))
  }

  /** The status a response error was reported with can be read back from the exception message. */
  lemma MessageCarriesStatus<T>(action: string, call: CallOutcome<T>)
    requires call.ResponseError?
    ensures var m := Execute(action, call).error.message;
      var prefix := "TMDB " + action + " failed with status ";
      prefix <= m && ParseDecimal(m[|prefix|..]) == call.status
  {
    var prefix := "TMDB " + action + " failed with status ";
    var m := Execute(action, call).error.message;
    assert m == prefix + Decimal(call.status);
    assert m[|prefix|..] == Decimal(call.status);
    DecimalRoundTrip(call.status);
  }

  // ---------------------------------------------------------------
  // The endpoints and their null-response guards
  // ---------------------------------------------------------------

  /** The endpoints that return one DTO. */
  datatype DetailsEndpoint = MovieDetails | TvShowDetails {
    /** The action named in failure messages. */
    function Action(): string {
      match this
      case MovieDetails => "fetch movie details"
      case TvShowDetails => "fetch tv show details"
    }
    /** What the empty-response message says was empty. */
    function EmptyWhat(): string {
      match this
      case MovieDetails => "movie details"
      case TvShowDetails => "tv show details"
    }
  }

  /** The endpoints that return a page of results. */
  datatype ListEndpoint =
    | SearchMovies | PopularMovies | TopRatedMovies | UpcomingMovies
    | PopularTvShows | TopRatedTvShows
  {
    function Action(): string {
      match this
      case SearchMovies => "search movies"
      case PopularMovies => "fetch popular movies"
      case TopRatedMovies => "fetch top-rated movies"
      case UpcomingMovies => "fetch upcoming movies"
      case PopularTvShows => "fetch popular tv shows"
      case TopRatedTvShows => "fetch top rated tv shows"
    }
    function EmptyWhat(): string {
      match this
      case SearchMovies => "search"
      case PopularMovies => "popular movies"
      case TopRatedMovies => "top-rated movies"
      case UpcomingMovies => "upcoming movies"
      case PopularTvShows => "popular tv shows"
      case TopRatedTvShows => "top rated tv shows"
    }
  }

  /** A TMDB result page (TmdbSearchMovieResponseDTO, TmdbSearchTvShowResponseDTO). */
  datatype Page<T> = Page(page: int, results: Option<seq<T>>, totalPages: int, totalResults: int)

  /** The exception thrown when a call returned a null payload. */
  function EmptyResponse(what: string): TmdbError {
    TmdbError("TMDB returned an empty response for " + what, None)
  }

  /** The null guard after `execute`: a null payload is never returned, it becomes an exception. */
  function RequirePayload<T>(what: string, r: Result<Option<T>, TmdbError>): (q: Result<T, TmdbError>)
    ensures q.Success? <==> r.Success? && r.value.Some?
    ensures q.Success? ==> q.value == r.value.value
    ensures r.Success? && r.value.None? ==> q.error == EmptyResponse(what) && q.error.status.None?
    ensures r.Failure? ==> q == Failure(r.error)
  {
    match r
    case Failure(e) => Failure(e)
    case Success(None) => Failure(EmptyResponse(what))
    case Success(Some(v)) => Success(v)
  }

  /** fetchMovieDetails / fetchTvShowDetails, given what the HTTP call did. */
  function Details<T>(ep: DetailsEndpoint, call: CallOutcome<T>): (r: Result<T, TmdbError>)
    ensures r.Success? <==> call.Ok? && call.payload.Some?
    ensures r.Success? ==> r.value == call.payload.value
    ensures call == Ok(None) ==> r == Failure(EmptyResponse(ep.EmptyWhat()))
    ensures call.ResponseError? ==> r.Failure? && r.error.status == Some(call.status)
    ensures call.ClientError? ==> r.Failure? && r.error.status.None?
    ensures call.ResponseError? || call.ClientError? ==> r == Failure(Execute(ep.Action(), call).error)
  {
    RequirePayload(ep.EmptyWhat(), Execute(ep.Action(), call))
  }

  /** searchMovies, popularMovies, ...: the page's `results` list, given what the HTTP call did. */
  function Listing<T>(ep: ListEndpoint, call: CallOutcome<Page<T>>): (r: Result<Option<seq<T>>, TmdbError>)
    ensures r.Success? <==> call.Ok? && call.payload.Some?
    ensures r.Success? ==> r.value == call.payload.value.results
    ensures call == Ok(None) ==> r == Failure(EmptyResponse(ep.EmptyWhat()))
    ensures call.ResponseError? ==> r.Failure? && r.error.status == Some(call.status)
    ensures call.ClientError? ==> r.Failure? && r.error.status.None?
    ensures call.ResponseError? || call.ClientError? ==> r == Failure(Execute(ep.Action(), call).error)
  {
    match RequirePayload(ep.EmptyWhat(), Execute(ep.Action(), call))
    case Success(page) => Success(page.results)
    case Failure(e) => Failure(e)
  }

  // ---------------------------------------------------------------
  // The provider as the services see it
  // ---------------------------------------------------------------

  /** How TMDB answers a details request for each id. */
  datatype Provider = Provider(
    movie: int -> CallOutcome<TmdbMovieDto>,
    tv: int -> CallOutcome<TmdbTvShowDto>)

  /** A details request the client sent. */
  datatype Request = MovieDetailsRequest(tmdbId: int) | TvShowDetailsRequest(tmdbId: int)

  /** The details calls of TmdbClient, with a record of every request sent. */
  class TmdbClient {
    const provider: Provider
    var requests: seq<Request>

    constructor (provider: Provider)
      ensures this.provider == provider && requests == []
    {
      this.provider := provider;
      requests := [];
    }

    /** fetchMovieDetails: sends one request and returns the DTO or throws. */
    method FetchMovieDetails(tmdbId: int) returns (r: Result<TmdbMovieDto, TmdbError>)
      modifies this`requests
      ensures requests == old(requests) + [MovieDetailsRequest(tmdbId)]
      ensures r == Details(MovieDetails, provider.movie(tmdbId))
    {
      requests := requests + [MovieDetailsRequest(tmdbId)];
      r := Details(MovieDetails, provider.movie(tmdbId));
    }

    /** fetchTvShowDetails: sends one request and returns the DTO or throws. */
    method FetchTvShowDetails(tmdbId: int) returns (r: Result<TmdbTvShowDto, TmdbError>)
      modifies this`requests
      ensures requests == old(requests) + [TvShowDetailsRequest(tmdbId)]
      ensures r == Details(TvShowDetails, provider.tv(tmdbId))
    {
      requests := requests + [TvShowDetailsRequest(tmdbId)];
      r := Details(TvShowDetails, provider.tv(tmdbId));
    }
  }
}

=== FILE: wrappers.dfy ===
/** Option and Result values standing in for Java's nullable references and thrown exceptions. */
module Wrappers {

  /** A value that may be absent: `None` is Java's `null`. */
  datatype Option<+T> = None | Some(value: T)

  /** The result of a call that either returns `value` or throws `error`. */
  datatype Result<+T, +E> = Success(value: T) | Failure(error: E)

  /** The result of a `void` call: it returns normally or throws `error`. */
  datatype Outcome<+E> = Pass | Fail(error: E)
}
